=== FILE: README.md ===
# extract-sass-dependencies, modelled in Dafny

`extract-sass-dependencies.rb` prints the import tree of one or more Sass
stylesheets. `DependencyExtractor#analyze` builds one `Asset` tree per entry
file. To do so it asks the Sass staleness checker which `(path, importer)`
pairs each file imports and recurses into every pair. One of three printers
then writes the trees:

- `flat_output`: every transitive dependency once, in the order first seen;
- `nested_output`: an indented outline with one line per node;
- `nested_html_output`: nested `<ol>`/`<li>` markup.

The model has these parts:

- `Sequences` (`sequences.dfy`): concatenation of a list of lists (`Concat`) and Ruby's `uniq`, which keeps first occurrences (`Uniq`, with the loop `UniqInOrder`).
  - Ruby's `flatten` (lines 16 and 82) flattens every level, not one. `Concat` agrees with it on the extractor's arrays for two reasons. `child.dependencies` and the per-asset name lists are already flat. An `Asset` struct has no `to_ary`, so `flatten` does not split it.
- `DependencyExtractor` (`extractor.dfy`): the tree and its builder.
  - `Asset` is the node.
  - `Dependencies` is `Asset#dependencies`, written as the Ruby writes it: the children mapped to `[child, child.dependencies]` and flattened.
  - `Build` is `analyze_file`, and `Analyze` is `analyze`.
  - The staleness checker becomes a parameter `Resolver(deps, rank)`. `deps(path, importer)` returns the ordered import pairs. `rank` is a measure that every import edge strictly decreases. The Ruby has no cycle guard. `Resolver.Acyclic` is a sufficient condition for building to terminate; it is stronger than the Ruby needs (see "## Left out").
  - Independent reference definitions sit beside the Ruby forms: `Preorder` (a head/tail pre-order walk) and `Resolved` (a node-by-node check that a tree agrees with the resolver).
- `Renderers` (`renderers.dfy`): `FlatOutput`, `NestedOutput` and `HtmlOutput`/`HtmlItems`/`HtmlItem`.
  - Each returns the lines that `puts` would write.
  - `clean_filename` becomes the parameter `name`.
  - `Listing` is the reference for "each node in pre-order with its level".
- `HtmlMarkup` (`html_markup.dfy`): reads HTML lines back.
  - `KindOf` classifies each line by its text after the indentation.
  - `Scan` is a stack machine over `<ol>`/`<li>` markers. It checks that the outline's marker lines are balanced and properly nested. `CountKind` counts the lines of each kind, and `HtmlOutputCounts` matches those counts against the tree. Display names are not escaped, so this is a statement about the marker lines, not about the HTML inside names (see "## Left out").
  - `ItemDepths` records how many markers are open at each item line, which is matched against the node's tree level.
- `ResolutionErrors` (`resolution_errors.dfy`): the builder when the resolver can raise.
  - `analyze_file` has no `rescue`, so the first error ends the call and no tree is returned (`TryBuild`).
  - The error returned is that of the first file, in resolution order, whose resolution raises.
- `WorkedExamples` (`worked_examples.dfy`): a chain, a diamond and a repeated entry file, computed line by line.

In the diamond (A imports B and C, both import D) the flat output is
B, D, C. `Asset#dependencies` lists each child followed by that child's own
dependencies, so D is met under B before C
(`WorkedExamples.DiamondFlatExample`).

## Model

| member | source | states |
|---|---|---|
| `DependencyExtractor.DependenciesArePreorder` | extract-sass-dependencies.rb:15-17 | `dependencies` is the pre-order traversal of the node's descendants, the node itself excluded, and has subtree size minus one entries |
| `DependencyExtractor.ChildListsArePreorder` | extract-sass-dependencies.rb:16 | flattening each child's `[child, *child.dependencies]` over a list of children yields the pre-order walk of those children's subtrees |
| `DependencyExtractor.DependenciesUnfold` | extract-sass-dependencies.rb:16 | a node's dependencies are its first child, that child's dependencies, then those of the remaining children; a childless node has none |
| `DependencyExtractor.BuildResolved` | extract-sass-dependencies.rb:30-33 | the built node carries the requested file and importer, has one child per resolver pair, and every node below agrees with the resolver (child i has pair i's path and importer) |
| `DependencyExtractor.ResolvedIsBuilt` | extract-sass-dependencies.rb:30-33 | any tree that agrees with the resolver node by node equals the tree `analyze_file` builds for its root: the builder's result is unique |
| `DependencyExtractor.ResolvedIffBuilt` | extract-sass-dependencies.rb:30-33 | agreeing with the resolver holds exactly for the built trees, both directions |
| `DependencyExtractor.BuildLeaf` | extract-sass-dependencies.rb:12-32 | a file whose resolver result is empty yields a node with no children and an empty dependency list |
| `DependencyExtractor.DependenciesAreBuilt` | extract-sass-dependencies.rb:15-32 | every dependency of a built tree is itself the tree built for its own file and importer, and lies strictly below the root in rank |
| `DependencyExtractor.AnalyzeRoots` | extract-sass-dependencies.rb:26-37 | `analyze` returns one root per entry file in input order, root i for file i with the shared default importer and agreeing with the resolver; a file listed twice yields two equal roots |
| `DependencyExtractor.AnalyzeAppend` | extract-sass-dependencies.rb:26-28 | analysing two lists of files is analysing them one after the other |
| `DependencyExtractor.ResolvedTransfer` | extract-sass-dependencies.rb:30-33 | a tree that agrees with one resolver agrees with any other resolver that reports the same imports for every node of the tree |
| `DependencyExtractor.BuildDependsOnVisited` | extract-sass-dependencies.rb:30-33 | `analyze_file` asks the resolver only about the nodes it visits: two acyclic resolvers that report the same imports for those nodes build the same tree, whatever they report for other files |
| `DependencyExtractor.ResolvedIsBuiltByAgreeing` | extract-sass-dependencies.rb:30-33 | a tree that agrees with any resolver, cyclic elsewhere or not, is the tree built by every acyclic resolver that reports the same imports for the tree's nodes |
| `DependencyExtractor.ResolvedUnique` | extract-sass-dependencies.rb:30-33 | the builder is deterministic: two trees that agree with the same resolver and start from the same file and importer are equal, so a file imported in two places with the same importer gets two equal subtrees |
| `DependencyExtractor.RestrictBuilds` | extract-sass-dependencies.rb:30-33 | a tree that agrees with a resolver, whatever the resolver reports for files outside it, is what `Build` returns under that resolver restricted to the tree's files; the restriction has no import cycle and reports the same imports for every node of the tree |
| `Sequences.Uniq` | extract-sass-dependencies.rb:82 | `uniq` leaves no duplicates, keeps every value of its input and adds none |
| `Sequences.UniqFirstOccurrenceOrder` | extract-sass-dependencies.rb:82 | `uniq` keeps values in the order of their first occurrence |
| `Sequences.UniqIdempotent` | extract-sass-dependencies.rb:82 | applying `uniq` twice equals applying it once |
| `Sequences.UniqPrefix` | extract-sass-dependencies.rb:82 | appending input only appends to the output of `uniq` |
| `Sequences.UniqInOrder` | extract-sass-dependencies.rb:82 | one pass with a set of seen values computes the first-occurrence deduplication |
| `Renderers.Indent` | extract-sass-dependencies.rb:86 | `"  " * depth` is exactly `2 * depth` spaces |
| `Renderers.FlatOutput` | extract-sass-dependencies.rb:79-83 | the flat output contains no name twice |
| `Renderers.FlatOutputMembers` | extract-sass-dependencies.rb:79-83 | a name is printed if and only if it names some dependency of some root, so a root is printed only when some root reaches it |
| `Renderers.FlatOutputOrder` | extract-sass-dependencies.rb:79-83 | names appear in the order first met when the roots' dependency lists are read root after root |
| `Renderers.FlatOutputIdempotent` | extract-sass-dependencies.rb:79-83 | deduplicating the flat output again changes nothing |
| `Renderers.FlatOutputExtends` | extract-sass-dependencies.rb:79-83 | the output for some entry files is a prefix of the output when more files follow them |
| `Renderers.FlatOutputOfLeaves` | extract-sass-dependencies.rb:79-83 | roots without children print no names |
| `Renderers.ListingNodes` | extract-sass-dependencies.rb:84-89 | the nodes of the nested outline, in order, are the pre-order walk of the roots |
| `Renderers.NestedOutputLines` | extract-sass-dependencies.rb:84-89 | line i of the nested outline is the i-th node in pre-order, indented by two spaces per level (roots at the starting depth), with no deduplication |
| `Renderers.NestedOutputLength` | extract-sass-dependencies.rb:84-89 | the nested outline has exactly one line per node of all the trees |
| `Renderers.NestedOutputAppend` | extract-sass-dependencies.rb:84-89 | roots are printed in input order: the outline of `a + b` is that of `a` followed by that of `b` |
| `HtmlMarkup.KindOfItemLeaf` | extract-sass-dependencies.rb:98 | a childless node's line `<li>name</li>` reads as a complete item whatever the name |
| `HtmlMarkup.KindOfItemOpen` | extract-sass-dependencies.rb:94 | the `<li>name` line of a node with children reads as an open item exactly when the name does not itself end in `</li>` |
| `HtmlMarkup.HtmlOutputCounts` | extract-sass-dependencies.rb:90-102 | the HTML has as many `<ol>` as `</ol>` lines, both 1 plus the number of nodes with children; one `</li>` line per node with children; one line starting `<li>` per node; when no node with children has a display name ending in `</li>`, one open item line per node with children |
| `HtmlMarkup.HtmlItemsCounts` | extract-sass-dependencies.rb:92-100 | the items of a list of roots hold one `<ol>`, `</ol>` and `</li>` per node with children and one `<li>` line per node |
| `HtmlMarkup.HtmlItemCounts` | extract-sass-dependencies.rb:93-99 | one node's item holds one `<li>` line per node of its subtree and one `<ol>`/`</ol>`/`</li>` per node with children in it |
| `HtmlMarkup.HtmlOutputScan` | extract-sass-dependencies.rb:90-102 | read where a list may stand, the `<ol>` block opens and closes its own markers in nesting order and leaves the reader's stack as it was, when no node with children has a display name ending in `</li>`; otherwise reading fails (`Malformed`) |
| `HtmlMarkup.HtmlItemsScan` | extract-sass-dependencies.rb:92-100 | inside a list, the items of a list of roots close every marker they open, or reading fails when a node with children among them has a display name ending in `</li>` |
| `HtmlMarkup.HtmlItemScan` | extract-sass-dependencies.rb:93-99 | inside a list, a node with children opens `<li>`, nests its children's `<ol>` and closes `</li>`; a childless node is one complete item; a node with children whose name ends in `</li>`, or one below it, makes reading fail |
| `HtmlMarkup.HtmlOutputWellFormed` | extract-sass-dependencies.rb:90-102 | the marker lines of the HTML outline, read from the top level, are balanced and properly nested (`<li>` only inside `<ol>`, `<ol>` only at the top or inside `<li>`, every closing marker matching the innermost open one) if and only if no node with children has a display name ending in `</li>` |
| `HtmlMarkup.HtmlOutputItemLines` | extract-sass-dependencies.rb:90-102 | the lines of the outline that start an item are the nodes in pre-order, one line each. A node at tree level `k` is indented `2k+1` steps. Its `</li>` is on the same line exactly when it has no children |
| `HtmlMarkup.HtmlItemsItemLines` | extract-sass-dependencies.rb:92-100 | the item lines of a list of roots are the roots in input order, each followed by its descendants one level further down |
| `HtmlMarkup.HtmlItemItemLines` | extract-sass-dependencies.rb:93-99 | one node's item lines are the node at its own level, then its subtree's nodes one level down per generation |
| `HtmlMarkup.PlainBranchesPreorder` | extract-sass-dependencies.rb:93-98 | the recursive condition `PlainBranches` holds exactly when every node with children, among the pre-order walk of the roots, has a display name not ending in `</li>` |
| `HtmlMarkup.HtmlMisreadScan` | extract-sass-dependencies.rb:93-98 | inside a list, the item of a node with children whose display name ends in `</li>` makes reading fail: its `<li>name` line reads as a complete item, and the nested `<ol>` that follows cannot stand inside a list |
| `HtmlMarkup.HtmlOutputNesting` | extract-sass-dependencies.rb:90-102 | when no node with children has a display name ending in `</li>`, read from the top level, the item line of each node, in pre-order, lies inside `k + 1` open lists and `k` open items for a node at tree level `k`: the markup nests as deep as the tree |
| `HtmlMarkup.HtmlOutputDepths` | extract-sass-dependencies.rb:90-102 | an `<ol>` block for roots at level `j`, read with `2j` markers open, reads each item line inside `2k + 1` markers for a node at level `k`, then continues with the rest unchanged |
| `HtmlMarkup.HtmlItemsDepths` | extract-sass-dependencies.rb:92-100 | the items of roots at level `j`, read inside a list with `2j + 1` markers open, give the same depths, root after root in input order |
| `HtmlMarkup.HtmlItemDepths` | extract-sass-dependencies.rb:93-99 | a node's own item line is read at its level's depth, and its children's block two markers deeper (inside its `<li>` and their `<ol>`) |
| `ResolutionErrors.TryBuildSuccess` | extract-sass-dependencies.rb:30-33 | with a resolver that can raise, a tree comes back only if no file in it raised, and it is the tree built from the reported imports |
| `ResolutionErrors.TryChildrenSuccess` | extract-sass-dependencies.rb:31 | the children mapped from the i-th import on, when none raised, are the built children from position i on |
| `ResolutionErrors.TryBuildFailure` | extract-sass-dependencies.rb:30-33 | the error that comes back is the one raised for the first file, in the order `analyze_file` resolves them (the file, then its dependencies in pre-order), whose resolution raises. Every file resolved before it reported its imports, and the error is passed on untranslated |
| `ResolutionErrors.TryChildrenFailure` | extract-sass-dependencies.rb:31 | when mapping the imports from the i-th on fails, the error is that of the first raising file, in resolution order, among the trees of those imports |
| `ResolutionErrors.TryBuildBuiltIff` | extract-sass-dependencies.rb:30-33 | a tree comes back exactly when no file of the tree built from the reported imports raises |
| `ResolutionErrors.TryBuildNeverRaising` | extract-sass-dependencies.rb:30-33 | when the resolver never raises, the fallible builder returns the plain builder's tree |
| `WorkedExamples.ChainExample` | extract-sass-dependencies.rb:30-33 | the chain X→Y→Z builds a path of three nodes, and X's flat output is Y, Z without X |
| `WorkedExamples.DiamondTree` | extract-sass-dependencies.rb:30-33 | in the diamond, D is built twice, once under B and once under C |
| `WorkedExamples.DiamondFlatExample` | extract-sass-dependencies.rb:79-83 | the diamond's flat output is B, D, C: D is printed once, where it is first met |
| `WorkedExamples.DiamondNestedExample` | extract-sass-dependencies.rb:84-89 | the diamond's nested output lists D under both B and C at the same indentation |
| `WorkedExamples.AnalyzeTwiceExample` | extract-sass-dependencies.rb:26-28 | an entry file given twice yields two equal roots, and their shared dependency is printed once |
| `WorkedExamples.ChainHtmlExample` | extract-sass-dependencies.rb:90-102 | the HTML outline of a two-node chain, line by line |
| `WorkedExamples.UnescapedNameExample` | extract-sass-dependencies.rb:94-98 | a childless file named `x</ol>` is printed unescaped as `<li>x</ol></li>`, and those marker lines still read as well formed: the reader checks marker lines, not the HTML inside names |
| `WorkedExamples.DiamondHtmlExample` | extract-sass-dependencies.rb:90-102 | with the paths as display names, the diamond's HTML outline is well formed and its item lines A, B, D, C, D sit inside 1, 3, 5, 3 and 5 open markers |
| `WorkedExamples.MisreadNameExample` | extract-sass-dependencies.rb:93-98 | the outline of a file named `x</li>` that imports one file does not read as well formed |
| `WorkedExamples.FirstErrorExample` | extract-sass-dependencies.rb:30-33 | when A imports B then C and both raise, building A fails with B's error; a raising file that nothing imports plays no part |

## Left out

- `clean_filename` (lines 67-78) is not modelled. It depends on the file system, the current directory and the Compass framework directories. Renderers take the display name as the parameter `name`.
- The Sass `StalenessChecker`, the engine options and the filesystem importer (lines 3-6, 20-24, 35-41) are library calls. They become the `Resolver` parameter and the `defaultImporter` parameter of `Analyze`.
- Memoising `@importer` and `@checker` is left out. It is a cache, and the model passes one fixed default importer to every entry file.
- `def analyze_file(f, importer = importer)` is modelled as its authors meant it: the default is the shared importer from the `importer` method. In Ruby 2.2 and later this default parameter refers to itself ("circular argument reference") and evaluates to `nil`. The model does not follow that reading.
- `Asset#initialize` turns missing children into `[]` (line 12). This default needs no model of its own: `analyze_file` always passes the children, and an `Asset` here always holds a sequence.
- Import cycles are excluded by the precondition `Resolver.Acyclic`. On an import cycle reachable from an entry file, and with no resolver error before it, the Ruby recursion has no bound: it ends when the interpreter's stack overflows (`SystemStackError`). That outcome is not modelled.
- `Resolver.Acyclic`: the rank condition is global. It covers every `(path, importer)` pair, not only those reachable from the entry files. So it also excludes a resolver with a cycle among files no entry file imports, on which `analyze_file` still terminates.
  - When `analyze_file` terminates, its result is a finite tree that agrees with the resolver node by node (`Resolved`), whatever the resolver does elsewhere.
  - `DependencyExtractor.RestrictBuilds` proves that every such tree is also a `Build` result. The resolver restricted to the tree's files, reporting no imports for any other file, satisfies `Acyclic`, and `Build` under it returns that very tree.
- `ResolutionErrors.TryBuildFailure`, `ResolutionErrors.TryChildrenFailure` and `ResolutionErrors.TryBuildBuiltIff` require `FallibleResolver.Acyclic`, which constrains every import edge of every file, including the edges after a file that raises. So they do not cover inputs on which the Ruby stops at an error before it reaches a cycle: A importing B then A, where B raises, ends with B's error, but that resolver is not acyclic. Unlike the plain builder (`DependencyExtractor.RestrictBuilds`), no restriction of such a resolver is proved to reproduce the error.
- Option parsing, the usage message, the exit code and the `send(:"#{format}_output")` dispatch (lines 44-65, 104) are command-line plumbing and are not modelled.
- The top-level `rescue` that prints the error and backtrace (lines 105-107) is I/O. `ResolutionErrors` models only how an error propagates out of the builder.
- Writing to stdout is not modelled. Renderers return lines instead.
  - `flat_output` writes its names joined by newlines in a single `puts`. With no names, that `puts` prints one empty line, and `FlatOutput` returns no lines for that case.
  - A display name containing a newline would print as several lines. Names are treated as single lines.
- `HtmlMarkup.HtmlOutputNesting`, `HtmlMarkup.HtmlOutputDepths`, `HtmlMarkup.HtmlItemsDepths` and `HtmlMarkup.HtmlItemDepths` require `PlainBranches`: no node with children in the trees being printed has a display name ending in `</li>`. By `HtmlMarkup.HtmlOutputWellFormed` this is exactly when the outline reads as well formed. For any other tree the reader fails (`HtmlMarkup.HtmlOutputScan`), so there are no depths to state.
- `HtmlMarkup.HtmlOutputWellFormed` and the other reader lemmas speak of the marker lines the renderer writes, not of the HTML a browser would parse.
  - `nested_html_output` does not escape display names (lines 94 and 98), and `KindOf` treats the text after `<li>` as opaque.
  - A name containing `<ol>`, `</ol>`, `<li>` or `</li>` therefore can leave the HTML itself unbalanced while the marker lines stay balanced. For example, the name `x</ol>` puts a stray `</ol>` inside an item.
- `HtmlMarkup.HtmlOutputItemLines`, `HtmlMarkup.HtmlItemsItemLines` and `HtmlMarkup.HtmlItemItemLines` are stated for even depths `2 * level` only. `nested_html_output` starts at depth 0 and adds 2 for each level, so these are the only depths it uses.

=== FILE: extractor.dfy ===
/** The dependency-tree builder of `DependencyExtractor`: an `Asset` node per
    stylesheet, built by asking a resolver for the files a stylesheet imports
    and recursing into each of them.

    `P` is the type of file paths, `C` the type of resolution contexts (the
    Sass importer that resolves a file's own imports). Both are opaque here.
 */
module DependencyExtractor {
  import opened Sequences

  /** A node of the dependency tree: the file, the importer it was resolved
      with, and one child per file it imports, in import order. */
  datatype Asset<P, C> = Asset(filename: P, importer: C, children: seq<Asset<P, C>>)

  /** The resolver the builder calls for every file (the staleness checker's
      `dependencies`): the ordered `(path, importer)` pairs a file imports
      directly. `rank` is a proof device only: a measure that every import
      edge strictly decreases, which is how the absence of import cycles is
      stated. The extractor itself has no cycle guard. */
  datatype Resolver<!P(!new), !C(!new)> = Resolver(deps: (P, C) -> seq<(P, C)>, rank: (P, C) -> nat)
  {
    /** Every import edge leads to a file of strictly smaller rank, so no file
        can reach itself. */
    ghost predicate Acyclic()
    {
      forall p: P, c: C, i :: 0 <= i < |deps(p, c)| ==>
        rank(deps(p, c)[i].0, deps(p, c)[i].1) < rank(p, c)
    }
  }

  /** Number of nodes in a tree. */
  function Size<P, C>(a: Asset<P, C>): nat
  {
    1 + ForestSize(a.children)
  }

  /** Number of nodes in a sequence of trees. */
  function ForestSize<P, C>(forest: seq<Asset<P, C>>): nat
  {
    if |forest| == 0 then 0 else Size(forest[0]) + ForestSize(forest[1..])
  }

  /** `Asset#dependencies`: every child is followed by its own dependencies,
      and the per-child lists are flattened together. The node itself is
      not part of the list. */
  function Dependencies<P, C>(a: Asset<P, C>): seq<Asset<P, C>>
  {
    Concat(ChildLists(a.children))
  }

  /** The list `[child, *child.dependencies]` of every child, in order. */
  function ChildLists<P, C>(children: seq<Asset<P, C>>): seq<seq<Asset<P, C>>>
  {
    seq(|children|, i requires 0 <= i < |children| => [children[i]] + Dependencies(children[i]))
  }

  /** Reference definition: the depth-first pre-order listing of all nodes
      of a sequence of trees, each tree before the trees to its right. */
  function Preorder<P, C>(forest: seq<Asset<P, C>>): seq<Asset<P, C>>
  {
    if |forest| == 0 then [] else [forest[0]] + Preorder(forest[0].children) + Preorder(forest[1..])
  }

  /** The pre-order listing of a forest lists each tree's nodes in turn. */
  lemma {:induction false} PreorderAppend<P, C>(a: seq<Asset<P, C>>, b: seq<Asset<P, C>>)
    ensures Preorder(a + b) == Preorder(a) + Preorder(b)
    ensures ForestSize(a + b) == ForestSize(a) + ForestSize(b)
  {
    if |a| != 0 {
      assert (a + b)[0] == a[0];
      assert (a + b)[1..] == a[1..] + b;
      PreorderAppend(a[1..], b);
    } else {
      assert a + b == b;
    }
  }

  /** The pre-order listing has exactly one entry per node. */
  lemma {:induction false} PreorderLength<P, C>(forest: seq<Asset<P, C>>)
    ensures |Preorder(forest)| == ForestSize(forest)
  {
    if |forest| != 0 {
      PreorderLength(forest[0].children);
      PreorderLength(forest[1..]);
    }
  }

  /** `dependencies` is the pre-order traversal of the node's descendants,
      without the node itself, and it has one entry per descendant. */
  lemma {:induction false} DependenciesArePreorder<P, C>(a: Asset<P, C>)
    ensures Dependencies(a) == Preorder(a.children)
    ensures |Dependencies(a)| == Size(a) - 1
    decreases a, 0
  {
    ChildListsArePreorder(a.children);
    PreorderLength(a.children);
  }

  /** Flattening the per-child lists `[child] + child.dependencies` of a
      sequence of trees yields their pre-order listing. */
  lemma {:induction false} ChildListsArePreorder<P, C>(forest: seq<Asset<P, C>>)
    ensures Concat(ChildLists(forest)) == Preorder(forest)
    decreases forest, 1
  {
    if |forest| != 0 {
      var rest := forest[1..];
      assert ChildLists(forest)[1..] == ChildLists(rest);
      DependenciesArePreorder(forest[0]);
      ChildListsArePreorder(rest);
    }
  }

  /** A node's dependencies are exactly its children's lists concatenated:
      each child followed by the child's own dependencies. */
  lemma DependenciesUnfold<P, C>(a: Asset<P, C>)
    ensures |a.children| == 0 ==> Dependencies(a) == []
    ensures |a.children| != 0 ==>
      Dependencies(a) == [a.children[0]] + Dependencies(a.children[0])
                         + Dependencies(Asset(a.filename, a.importer, a.children[1..]))
  {
    DependenciesArePreorder(a);
    if |a.children| != 0 {
      DependenciesArePreorder(a.children[0]);
      DependenciesArePreorder(Asset(a.filename, a.importer, a.children[1..]));
    }
  }

  /** `analyze_file`: resolve the file's direct imports with its importer,
      build a child for each `(path, importer)` pair, in order. The resolver
      is called once per node; termination rests on `Acyclic`. */
  function Build<P(!new), C(!new)>(r: Resolver<P, C>, f: P, c: C): Asset<P, C>
    requires r.Acyclic()
    decreases r.rank(f, c)
  {
    var ds := r.deps(f, c);
    Asset(f, c, seq(|ds|, i requires 0 <= i < |ds| => Build(r, ds[i].0, ds[i].1)))
  }

  /** `analyze`: one tree per entry file, in the order given, each built with
      the one shared default importer. */
  function Analyze<P(!new), C(!new)>(r: Resolver<P, C>, defaultImporter: C, files: seq<P>): seq<Asset<P, C>>
    requires r.Acyclic()
  {
    seq(|files|, i requires 0 <= i < |files| => Build(r, files[i], defaultImporter))
  }

  /** A tree agrees with the resolver: every node has one child per pair the
      resolver reports for the node's own file and importer, the child
      carrying that pair's path and importer. Checked node by node, without
      calling the builder. */
  ghost predicate Resolved<P(!new), C(!new)>(r: Resolver<P, C>, t: Asset<P, C>)
  {
    var ds := r.deps(t.filename, t.importer);
    && |t.children| == |ds|
    && forall i :: 0 <= i < |ds| ==>
         && t.children[i].filename == ds[i].0
         && t.children[i].importer == ds[i].1
         && Resolved(r, t.children[i])
  }

  /** The node `Build` returns carries the file and importer it was asked
      for, has one child per resolver pair, child `i` being the tree built
      from pair `i`, and agrees with the resolver all the way down. */
  lemma {:induction false} BuildResolved<P(!new), C(!new)>(r: Resolver<P, C>, f: P, c: C)
    requires r.Acyclic()
    ensures Build(r, f, c).filename == f && Build(r, f, c).importer == c
    ensures |Build(r, f, c).children| == |r.deps(f, c)|
    ensures Resolved(r, Build(r, f, c))
    decreases r.rank(f, c)
  {
    var ds := r.deps(f, c);
    var t := Build(r, f, c);
    forall i | 0 <= i < |ds|
      ensures t.children[i].filename == ds[i].0
      ensures t.children[i].importer == ds[i].1
      ensures Resolved(r, t.children[i])
    {
      BuildResolved(r, ds[i].0, ds[i].1);
    }
  }

  /** A tree that agrees with the resolver is the tree `Build` returns for its
      root's file and importer: the builder's result is the only one. */
  lemma {:induction false} ResolvedIsBuilt<P(!new), C(!new)>(r: Resolver<P, C>, t: Asset<P, C>)
    requires r.Acyclic()
    requires Resolved(r, t)
    ensures t == Build(r, t.filename, t.importer)
  {
    var ds := r.deps(t.filename, t.importer);
    var b := Build(r, t.filename, t.importer);
    forall i | 0 <= i < |ds|
      ensures t.children[i] == b.children[i]
    {
      ResolvedIsBuilt(r, t.children[i]);
    }
    assert t.children == b.children;
  }

  /** Both directions together: agreeing with the resolver characterises
      the built trees. */
  lemma {:induction false} ResolvedIffBuilt<P(!new), C(!new)>(r: Resolver<P, C>, t: Asset<P, C>)
    requires r.Acyclic()
    ensures Resolved(r, t) <==> t == Build(r, t.filename, t.importer)
  {
    if Resolved(r, t) {
      ResolvedIsBuilt(r, t);
    } else {
      BuildResolved(r, t.filename, t.importer);
    }
  }

  /** A file that imports nothing yields a node without children, whose
      dependency list is empty. */
  lemma BuildLeaf<P(!new), C(!new)>(r: Resolver<P, C>, f: P, c: C)
    requires r.Acyclic()
    requires r.deps(f, c) == []
    ensures Build(r, f, c).children == []
    ensures Dependencies(Build(r, f, c)) == []
  {
  }

  /** Every node of a forest of trees that agree with the resolver agrees
      with it too, and its rank is no more than that of the forest's roots. */
  lemma {:induction false} PreorderResolved<P(!new), C(!new)>(r: Resolver<P, C>, forest: seq<Asset<P, C>>, bound: nat)
    requires r.Acyclic()
    requires forall i :: 0 <= i < |forest| ==> Resolved(r, forest[i])
    requires forall i :: 0 <= i < |forest| ==> r.rank(forest[i].filename, forest[i].importer) <= bound
    ensures forall d :: d in Preorder(forest) ==> Resolved(r, d) && r.rank(d.filename, d.importer) <= bound
  {
    if |forest| != 0 {
      var a := forest[0];
      var ds := r.deps(a.filename, a.importer);
      assert forall i :: 0 <= i < |a.children| ==>
        a.children[i].filename == ds[i].0 && a.children[i].importer == ds[i].1;
      PreorderResolved(r, a.children, bound);
      PreorderResolved(r, forest[1..], bound);
    }
  }

  /** Every dependency of a built tree is itself the tree the builder returns
      for that dependency's file and importer, and lies strictly below the
      root in rank: the tree is the transitive closure of the resolver. */
  lemma DependenciesAreBuilt<P(!new), C(!new)>(r: Resolver<P, C>, f: P, c: C)
    requires r.Acyclic()
    ensures forall d :: d in Dependencies(Build(r, f, c)) ==>
      d == Build(r, d.filename, d.importer) && r.rank(d.filename, d.importer) < r.rank(f, c)
  {
    var t := Build(r, f, c);
    var ds := r.deps(f, c);
    BuildResolved(r, f, c);
    DependenciesArePreorder(t);
    if r.rank(f, c) > 0 {
      PreorderResolved(r, t.children, r.rank(f, c) - 1);
    } else {
      assert |ds| == 0;
    }
    forall d | d in Dependencies(t)
      ensures d == Build(r, d.filename, d.importer)
    {
      ResolvedIsBuilt(r, d);
    }
  }

  /** The nodes of a tree in the order `analyze_file` resolves them: the
      node itself, then its dependencies. */
  function Visited<P, C>(t: Asset<P, C>): (nodes: seq<Asset<P, C>>)
    ensures |nodes| == Size(t) && nodes[0] == t
  {
    DependenciesArePreorder(t);
    [t] + Dependencies(t)
  }

  /** Every node visited under a child is visited under its parent. */
  lemma VisitedChild<P, C>(t: Asset<P, C>, i: nat, d: Asset<P, C>)
    requires i < |t.children|
    requires d in Visited(t.children[i])
    ensures d in Visited(t)
  {
    assert ChildLists(t.children)[i] == Visited(t.children[i]);
    ConcatMember(ChildLists(t.children), d);
  }

  /** Two agreeing resolvers agree further down: if a tree agrees with `r1`
      and `r2` reports the same imports as `r1` for every node of the tree,
      the tree agrees with `r2`. */
  lemma {:induction false} ResolvedTransfer<P(!new), C(!new)>(r1: Resolver<P, C>, r2: Resolver<P, C>, t: Asset<P, C>)
    requires Resolved(r1, t)
    requires forall d :: d in Visited(t) ==> r2.deps(d.filename, d.importer) == r1.deps(d.filename, d.importer)
    ensures Resolved(r2, t)
  {
    assert t in Visited(t);
    forall i | 0 <= i < |t.children|
      ensures Resolved(r2, t.children[i])
    {
      forall d | d in Visited(t.children[i])
        ensures r2.deps(d.filename, d.importer) == r1.deps(d.filename, d.importer)
      {
        VisitedChild(t, i, d);
      }
      ResolvedTransfer(r1, r2, t.children[i]);
    }
  }

  /** `analyze_file` only asks the resolver about the nodes it visits: a
      second resolver that reports the same imports for those nodes, whatever
      it says about any other file, builds the same tree. In particular the
      rank condition matters only on the part reachable from the entry file. */
  lemma BuildDependsOnVisited<P(!new), C(!new)>(r1: Resolver<P, C>, r2: Resolver<P, C>, f: P, c: C)
    requires r1.Acyclic() && r2.Acyclic()
    requires forall d :: d in Visited(Build(r1, f, c)) ==>
      r2.deps(d.filename, d.importer) == r1.deps(d.filename, d.importer)
    ensures Build(r2, f, c) == Build(r1, f, c)
  {
    var t := Build(r1, f, c);
    BuildResolved(r1, f, c);
    ResolvedTransfer(r1, r2, t);
    ResolvedIsBuilt(r2, t);
  }

  /** A tree that agrees with any resolver `r1`, acyclic or not, is the tree
      built by every acyclic resolver `r2` that reports the same imports for
      the tree's nodes. */
  lemma ResolvedIsBuiltByAgreeing<P(!new), C(!new)>(r1: Resolver<P, C>, r2: Resolver<P, C>, t: Asset<P, C>)
    requires Resolved(r1, t)
    requires r2.Acyclic()
    requires forall d :: d in Visited(t) ==> r2.deps(d.filename, d.importer) == r1.deps(d.filename, d.importer)
    ensures t == Build(r2, t.filename, t.importer)
  {
    ResolvedTransfer(r1, r2, t);
    ResolvedIsBuilt(r2, t);
  }

  /** A node of `t` is visited for the file `p` with importer `c`. */
  ghost predicate InTree<P, C>(t: Asset<P, C>, p: P, c: C)
  {
    exists d :: d in Visited(t) && d.filename == p && d.importer == c
  }

  /** Some node of `t` visited for `p` and `c`. */
  ghost function NodeFor<P, C>(t: Asset<P, C>, p: P, c: C): (d: Asset<P, C>)
    requires InTree(t, p, c)
    ensures d in Visited(t) && d.filename == p && d.importer == c
  {
    var d :| d in Visited(t) && d.filename == p && d.importer == c; d
  }

  /** `r` restricted to the files of the tree `t`: the same imports for the
      tree's nodes, none for any other file, ranked by subtree size. */
  ghost function Restrict<P(!new), C(!new)>(r: Resolver<P, C>, t: Asset<P, C>): Resolver<P, C>
  {
    Resolver((p, c) => if InTree(t, p, c) then r.deps(p, c) else [],
             (p, c) => if InTree(t, p, c) then Size(NodeFor(t, p, c)) else 0)
  }

  /** Every node below a visited node is visited. */
  lemma {:induction false} VisitedTransitive<P, C>(t: Asset<P, C>, d: Asset<P, C>, e: Asset<P, C>)
    requires d in Visited(t) && e in Visited(d)
    ensures e in Visited(t)
    decreases t
  {
    if d != t {
      var j := VisitedUnder(t, d);
      VisitedTransitive(t.children[j], d, e);
      VisitedChild(t, j, e);
    }
  }

  /** A visited node other than the root is visited under one of its children. */
  lemma VisitedUnder<P, C>(t: Asset<P, C>, d: Asset<P, C>) returns (j: nat)
    requires d in Visited(t) && d != t
    ensures j < |t.children| && d in Visited(t.children[j])
  {
    ConcatMember(ChildLists(t.children), d);
    var k :| 0 <= k < |ChildLists(t.children)| && d in ChildLists(t.children)[k];
    assert ChildLists(t.children)[k] == Visited(t.children[k]);
    j := k;
  }

  /** Every node of a tree that agrees with `r` agrees with `r` too. */
  lemma {:induction false} VisitedResolved<P(!new), C(!new)>(r: Resolver<P, C>, t: Asset<P, C>, d: Asset<P, C>)
    requires Resolved(r, t) && d in Visited(t)
    ensures Resolved(r, d)
    decreases t
  {
    if d != t {
      var j := VisitedUnder(t, d);
      VisitedResolved(r, t.children[j], d);
    }
  }

  /** Two trees that agree with the same resolver and start from the same
      file and importer are equal. */
  lemma {:induction false} ResolvedUnique<P(!new), C(!new)>(r: Resolver<P, C>, x: Asset<P, C>, y: Asset<P, C>)
    requires Resolved(r, x) && Resolved(r, y)
    requires x.filename == y.filename && x.importer == y.importer
    ensures x == y
    decreases x
  {
    forall i | 0 <= i < |x.children|
      ensures x.children[i] == y.children[i]
    {
      ResolvedUnique(r, x.children[i], y.children[i]);
    }
  }

  /** A tree is larger than each of the trees in its forest. */
  lemma {:induction false} ForestSizeBound<P, C>(forest: seq<Asset<P, C>>, i: nat)
    requires i < |forest|
    ensures Size(forest[i]) <= ForestSize(forest)
  {
    if i != 0 {
      ForestSizeBound(forest[1..], i - 1);
    }
  }

  /** Restricting a resolver to the files of a tree that agrees with it
      leaves no import cycle, whatever the resolver reports elsewhere, and
      the restriction builds that very tree. So the tree `analyze_file`
      returns whenever it terminates, cycles among other files or not, is a
      tree `Build` computes under `Acyclic`. */
  lemma RestrictBuilds<P(!new), C(!new)>(r: Resolver<P, C>, t: Asset<P, C>)
    requires Resolved(r, t)
    ensures Restrict(r, t).Acyclic()
    ensures forall d :: d in Visited(t) ==>
      Restrict(r, t).deps(d.filename, d.importer) == r.deps(d.filename, d.importer)
    ensures t == Build(Restrict(r, t), t.filename, t.importer)
  {
    var r2 := Restrict(r, t);
    forall p: P, c: C, i | 0 <= i < |r2.deps(p, c)|
      ensures r2.rank(r2.deps(p, c)[i].0, r2.deps(p, c)[i].1) < r2.rank(p, c)
    {
      RestrictEdge(r, t, p, c, i);
    }
    forall d | d in Visited(t)
      ensures r2.deps(d.filename, d.importer) == r.deps(d.filename, d.importer)
    {
      assert InTree(t, d.filename, d.importer);
    }
    ResolvedIsBuiltByAgreeing(r, r2, t);
  }

  /** One import edge of the restriction decreases its rank. */
  lemma RestrictEdge<P(!new), C(!new)>(r: Resolver<P, C>, t: Asset<P, C>, p: P, c: C, i: nat)
    requires Resolved(r, t)
    requires i < |Restrict(r, t).deps(p, c)|
    ensures InTree(t, p, c)
    ensures Restrict(r, t).rank(Restrict(r, t).deps(p, c)[i].0, Restrict(r, t).deps(p, c)[i].1)
            < Restrict(r, t).rank(p, c)
  {
    var d := NodeFor(t, p, c);
    VisitedResolved(r, t, d);
    var e := d.children[i];
    VisitedChild(d, i, e);
    VisitedTransitive(t, d, e);
    assert InTree(t, e.filename, e.importer);
    var e2 := NodeFor(t, e.filename, e.importer);
    VisitedResolved(r, t, e2);
    ResolvedUnique(r, e, e2);
    ForestSizeBound(d.children, i);
  }

  /** `analyze` returns one root per entry file, in input order; root `i`
      is for file `i`, carries the shared default importer and agrees with
      the resolver; a file listed twice yields two equal roots. */
  lemma AnalyzeRoots<P(!new), C(!new)>(r: Resolver<P, C>, defaultImporter: C, files: seq<P>)
    requires r.Acyclic()
    ensures |Analyze(r, defaultImporter, files)| == |files|
    ensures forall i :: 0 <= i < |files| ==>
      && Analyze(r, defaultImporter, files)[i].filename == files[i]
      && Analyze(r, defaultImporter, files)[i].importer == defaultImporter
      && Resolved(r, Analyze(r, defaultImporter, files)[i])
    ensures forall i, j :: 0 <= i < |files| && 0 <= j < |files| && files[i] == files[j] ==>
      Analyze(r, defaultImporter, files)[i] == Analyze(r, defaultImporter, files)[j]
  {
    forall i | 0 <= i < |files|
      ensures Resolved(r, Analyze(r, defaultImporter, files)[i])
    {
      BuildResolved(r, files[i], defaultImporter);
    }
  }

  /** Analysing two lists of entry files one after the other is analysing
      their concatenation. */
  lemma AnalyzeAppend<P(!new), C(!new)>(r: Resolver<P, C>, defaultImporter: C, a: seq<P>, b: seq<P>)
    requires r.Acyclic()
    ensures Analyze(r, defaultImporter, a + b) == Analyze(r, defaultImporter, a) + Analyze(r, defaultImporter, b)
  {
  }
}

=== FILE: html_markup.dfy ===
/** Reading back the lines of `nested_html_output`: every line is classified
    by its text after the indentation, and a stack machine checks that the
    `<ol>`/`<li>` markup is properly nested. The renderer's output is shown
    to be balanced, and its markers are counted against the tree.
 */
module HtmlMarkup {
  import opened Sequences
  import opened DependencyExtractor
  import opened Renderers

  /** A line without its leading spaces. */
  function Strip(line: string): string
  {
    if |line| != 0 && line[0] == ' ' then Strip(line[1..]) else line
  }

  /** Indentation is exactly what `Strip` removes from text that does not
      itself start with a space. */
  lemma {:induction false} StripIndent(depth: nat, s: string)
    requires |s| != 0 && s[0] != ' '
    ensures Strip(Indent(depth) + s) == s
  {
    if depth != 0 {
      var line := Indent(depth) + s;
      assert line == "  " + (Indent(depth - 1) + s);
      assert line[1..][1..] == Indent(depth - 1) + s;
      StripIndent(depth - 1, s);
    }
  }

  /** The kinds of line the HTML renderer writes, and `Text` for anything else. */
  datatype LineKind = ListOpen | ListClose | ItemOpen | ItemClose | ItemLeaf | Text

  /** Text that begins an item. */
  predicate StartsItem(s: string)
  {
    |s| >= 4 && s[..4] == "<li>"
  }

  /** Text that ends with the item closing tag. */
  predicate EndsItem(s: string)
  {
    |s| >= 5 && s[|s| - 5..] == "</li>"
  }

  /** Classify a line by its text after the indentation. An item line is a
      complete item when it also ends with `</li>` after its `<li>`. */
  function KindOf(line: string): LineKind
  {
    var s := Strip(line);
    if s == "<ol>" then ListOpen
    else if s == "</ol>" then ListClose
    else if s == "</li>" then ItemClose
    else if StartsItem(s) then (if |s| >= 9 && EndsItem(s) then ItemLeaf else ItemOpen)
    else Text
  }

  /** A display name that does not end in `</li>`: for such names an item
      line that is left open cannot be mistaken for a complete one. */
  predicate PlainName(n: string)
  {
    !EndsItem(n)
  }

  /** Every node with children in the trees of `forest` has a plain display
      name (`PlainBranchesPreorder`). Only those names matter: a childless
      node's line is a complete item whatever its name. */
  predicate PlainBranches<P, C>(name: P -> string, forest: seq<Asset<P, C>>)
  {
    |forest| == 0 ||
    ((|forest[0].children| != 0 ==> PlainName(name(forest[0].filename)))
     && PlainBranches(name, forest[0].children) && PlainBranches(name, forest[1..]))
  }

  /** `PlainBranches` holds exactly when every node with children, in the
      pre-order listing of the forest, has a plain name. */
  lemma {:induction false} PlainBranchesPreorder<P, C>(name: P -> string, forest: seq<Asset<P, C>>)
    ensures PlainBranches(name, forest)
            <==> forall d :: d in Preorder(forest) && |d.children| != 0 ==> PlainName(name(d.filename))
  {
    if |forest| != 0 {
      var a := forest[0];
      var below := Preorder(a.children);
      var others := Preorder(forest[1..]);
      PlainBranchesPreorder(name, a.children);
      PlainBranchesPreorder(name, forest[1..]);
      assert Preorder(forest) == [a] + below + others;
    }
  }

  /** The condition for one tree: its root, if it has children, and the
      trees of its children. */
  lemma PlainBranchesNode<P, C>(name: P -> string, a: Asset<P, C>)
    ensures PlainBranches(name, [a])
            <==> (|a.children| != 0 ==> PlainName(name(a.filename))) && PlainBranches(name, a.children)
  {
    assert [a][1..] == [];
  }

  /** The condition for a forest: its first tree and the others. */
  lemma PlainBranchesSplit<P, C>(name: P -> string, forest: seq<Asset<P, C>>)
    requires |forest| != 0
    ensures PlainBranches(name, forest) <==> PlainBranches(name, [forest[0]]) && PlainBranches(name, forest[1..])
  {
    assert [forest[0]][1..] == [];
  }

  /** An indented `<ol>` line opens a list. */
  lemma KindOfListOpen(depth: nat)
    ensures KindOf(Indent(depth) + "<ol>") == ListOpen
  {
    StripIndent(depth, "<ol>");
  }

  /** An indented `</ol>` line closes a list. */
  lemma KindOfListClose(depth: nat)
    ensures KindOf(Indent(depth) + "</ol>") == ListClose
  {
    StripIndent(depth, "</ol>");
  }

  /** An indented `</li>` line closes an item. */
  lemma KindOfItemClose(depth: nat)
    ensures KindOf(Indent(depth) + "</li>") == ItemClose
  {
    StripIndent(depth, "</li>");
  }

  /** `<li>name</li>` is a complete item, whatever the name. */
  lemma KindOfItemLeaf(depth: nat, n: string)
    ensures KindOf(Indent(depth) + "<li>" + n + "</li>") == ItemLeaf
  {
    var s := "<li>" + n + "</li>";
    assert Indent(depth) + "<li>" + n + "</li>" == Indent(depth) + s;
    StripIndent(depth, s);
    assert s[..4] == "<li>";
    assert s[|s| - 5..] == "</li>";
  }

  /** `<li>name` opens an item; it is a complete item instead only when the
      name itself ends in `</li>`. */
  lemma KindOfItemOpen(depth: nat, n: string)
    ensures KindOf(Indent(depth) + "<li>" + n) == (if PlainName(n) then ItemOpen else ItemLeaf)
  {
    var s := "<li>" + n;
    assert Indent(depth) + "<li>" + n == Indent(depth) + s;
    StripIndent(depth, s);
    assert s[..4] == "<li>";
    assert s != "<ol>" && s != "</ol>" && s != "</li>" by {
      assert s[1] == 'l';
    }
    if |n| >= 5 {
      assert s[|s| - 5..] == n[|n| - 5..];
    }
  }

  // ---------------------------------------------------------------------
  // Counting markers
  // ---------------------------------------------------------------------

  /** Whether a line is of kind `k`. */
  function KindTest(k: LineKind): string -> bool
  {
    line => KindOf(line) == k
  }

  /** Number of lines of the given kind. */
  function CountKind(lines: seq<string>, k: LineKind): nat
  {
    |Filter(lines, KindTest(k))|
  }

  lemma CountKindSingle(line: string, k: LineKind)
    ensures CountKind([line], k) == if KindOf(line) == k then 1 else 0
  {
    assert [line][1..] == [];
    assert Filter([line][1..], KindTest(k)) == [];
  }

  lemma CountKindAppend(a: seq<string>, b: seq<string>, k: LineKind)
    ensures CountKind(a + b, k) == CountKind(a, k) + CountKind(b, k)
  {
    FilterAppend(a, b, KindTest(k));
  }

  /** Counting over a block between an opening and a closing line. */
  lemma CountKindWrap(x: string, inner: seq<string>, y: string, k: LineKind)
    ensures CountKind([x] + inner + [y], k)
            == (if KindOf(x) == k then 1 else 0) + CountKind(inner, k) + (if KindOf(y) == k then 1 else 0)
  {
    CountKindAppend([x] + inner, [y], k);
    CountKindAppend([x], inner, k);
    CountKindSingle(x, k);
    CountKindSingle(y, k);
  }

  /** 1 for a node with children, 0 for a leaf. */
  function OwnBranch<P, C>(a: Asset<P, C>): nat
  {
    if |a.children| != 0 then 1 else 0
  }

  /** Number of nodes with at least one child in a list of nodes. */
  function CountBranches<P, C>(nodes: seq<Asset<P, C>>): nat
  {
    if |nodes| == 0 then 0
    else OwnBranch(nodes[0]) + CountBranches(nodes[1..])
  }

  lemma {:induction false} CountBranchesAppend<P, C>(a: seq<Asset<P, C>>, b: seq<Asset<P, C>>)
    ensures CountBranches(a + b) == CountBranches(a) + CountBranches(b)
  {
    if |a| == 0 {
      assert a + b == b;
    } else {
      assert (a + b)[1..] == a[1..] + b;
      CountBranchesAppend(a[1..], b);
    }
  }

  /** Number of nodes of a forest that have children. */
  function Branches<P, C>(forest: seq<Asset<P, C>>): nat
  {
    CountBranches(Preorder(forest))
  }

  /** The branch count of a forest splits over its first tree's root, that
      root's children and the remaining trees. */
  lemma BranchesUnfold<P, C>(forest: seq<Asset<P, C>>)
    requires |forest| != 0
    ensures Branches(forest) == OwnBranch(forest[0]) + Branches(forest[0].children) + Branches(forest[1..])
  {
    var p1 := Preorder(forest[0].children);
    var p2 := Preorder(forest[1..]);
    assert Preorder(forest) == [forest[0]] + (p1 + p2);
    CountBranchesAppend([forest[0]], p1 + p2);
    CountBranchesAppend(p1, p2);
  }

  /** Marker counts of `nested_html_output`: one `<ol>` and one `</ol>` for
      the outer list and for every node with children, one `</li>` line per
      node with children, and one line beginning `<li>` per node. With plain
      names, the open items are exactly the nodes with children. */
  lemma {:induction false} HtmlOutputCounts<P(!new), C>(name: P -> string, forest: seq<Asset<P, C>>, depth: nat)
    ensures CountKind(HtmlOutput(name, forest, depth), ListOpen) == 1 + Branches(forest)
    ensures CountKind(HtmlOutput(name, forest, depth), ListClose) == 1 + Branches(forest)
    ensures CountKind(HtmlOutput(name, forest, depth), ItemClose) == Branches(forest)
    ensures CountKind(HtmlOutput(name, forest, depth), ItemOpen)
            + CountKind(HtmlOutput(name, forest, depth), ItemLeaf) == ForestSize(forest)
    ensures PlainBranches(name, forest) ==> CountKind(HtmlOutput(name, forest, depth), ItemOpen) == Branches(forest)
    decreases forest, 2
  {
    var items := HtmlItems(name, forest, depth);
    HtmlItemsCounts(name, forest, depth);
    KindOfListOpen(depth);
    KindOfListClose(depth);
    forall k: LineKind
      ensures CountKind(HtmlOutput(name, forest, depth), k)
              == (if k == ListOpen then 1 else 0) + CountKind(items, k) + (if k == ListClose then 1 else 0)
    {
      CountKindWrap(Indent(depth) + "<ol>", items, Indent(depth) + "</ol>", k);
    }
  }

  /** Marker counts of the items of a forest. */
  lemma {:induction false} HtmlItemsCounts<P(!new), C>(name: P -> string, forest: seq<Asset<P, C>>, depth: nat)
    ensures CountKind(HtmlItems(name, forest, depth), ListOpen) == Branches(forest)
    ensures CountKind(HtmlItems(name, forest, depth), ListClose) == Branches(forest)
    ensures CountKind(HtmlItems(name, forest, depth), ItemClose) == Branches(forest)
    ensures CountKind(HtmlItems(name, forest, depth), ItemOpen)
            + CountKind(HtmlItems(name, forest, depth), ItemLeaf) == ForestSize(forest)
    ensures PlainBranches(name, forest) ==> CountKind(HtmlItems(name, forest, depth), ItemOpen) == Branches(forest)
    decreases forest, 1
  {
    if |forest| != 0 {
      var first := HtmlItem(name, forest[0], depth);
      var rest := HtmlItems(name, forest[1..], depth);
      HtmlItemCounts(name, forest[0], depth);
      HtmlItemsCounts(name, forest[1..], depth);
      PlainBranchesSplit(name, forest);
      BranchesUnfold(forest);
      forall k: LineKind
        ensures CountKind(HtmlItems(name, forest, depth), k) == CountKind(first, k) + CountKind(rest, k)
      {
        CountKindAppend(first, rest, k);
      }
    }
  }

  /** Marker counts of the item of one node: the node itself and its
      descendants. */
  lemma {:induction false} HtmlItemCounts<P(!new), C>(name: P -> string, a: Asset<P, C>, depth: nat)
    ensures CountKind(HtmlItem(name, a, depth), ListOpen) == OwnBranch(a) + Branches(a.children)
    ensures CountKind(HtmlItem(name, a, depth), ListClose) == OwnBranch(a) + Branches(a.children)
    ensures CountKind(HtmlItem(name, a, depth), ItemClose) == OwnBranch(a) + Branches(a.children)
    ensures CountKind(HtmlItem(name, a, depth), ItemOpen)
            + CountKind(HtmlItem(name, a, depth), ItemLeaf) == Size(a)
    ensures PlainBranches(name, [a]) ==>
              CountKind(HtmlItem(name, a, depth), ItemOpen) == OwnBranch(a) + Branches(a.children)
    decreases a, 0
  {
    if |a.children| != 0 {
      HtmlOutputCounts(name, a.children, depth + 2);
      HtmlBranchKinds(name, a, depth);
    } else {
      HtmlLeafKinds(name, a, depth);
      assert Branches(a.children) == 0;
    }
  }

  /** The item of a node with children: its opening and closing lines
      around the nested list of the children. */
  lemma HtmlBranchKinds<P, C>(name: P -> string, a: Asset<P, C>, depth: nat)
    requires |a.children| != 0
    ensures OwnBranch(a) == 1
    ensures Size(a) == 1 + ForestSize(a.children)
    ensures PlainBranches(name, [a]) <==> PlainName(name(a.filename)) && PlainBranches(name, a.children)
    ensures CountKind(HtmlItem(name, a, depth), ListOpen) == CountKind(HtmlOutput(name, a.children, depth + 2), ListOpen)
    ensures CountKind(HtmlItem(name, a, depth), ListClose) == CountKind(HtmlOutput(name, a.children, depth + 2), ListClose)
    ensures CountKind(HtmlItem(name, a, depth), ItemClose) == 1 + CountKind(HtmlOutput(name, a.children, depth + 2), ItemClose)
    ensures CountKind(HtmlItem(name, a, depth), ItemLeaf)
            == (if PlainName(name(a.filename)) then 0 else 1) + CountKind(HtmlOutput(name, a.children, depth + 2), ItemLeaf)
    ensures CountKind(HtmlItem(name, a, depth), ItemOpen)
            == (if PlainName(name(a.filename)) then 1 else 0) + CountKind(HtmlOutput(name, a.children, depth + 2), ItemOpen)
  {
    var o := Indent(depth + 1) + "<li>" + name(a.filename);
    var inner := HtmlOutput(name, a.children, depth + 2);
    var c := Indent(depth + 1) + "</li>";
    PlainBranchesNode(name, a);
    KindOfItemOpen(depth + 1, name(a.filename));
    KindOfItemClose(depth + 1);
    assert HtmlItem(name, a, depth) == [o] + inner + [c];
    CountKindWrap(o, inner, c, ListOpen);
    CountKindWrap(o, inner, c, ListClose);
    CountKindWrap(o, inner, c, ItemClose);
    CountKindWrap(o, inner, c, ItemOpen);
    CountKindWrap(o, inner, c, ItemLeaf);
  }

  /** The item of a leaf: one complete item line. */
  lemma HtmlLeafKinds<P, C>(name: P -> string, a: Asset<P, C>, depth: nat)
    requires |a.children| == 0
    ensures OwnBranch(a) == 0 && Size(a) == 1
    ensures PlainBranches(name, [a])
    ensures CountKind(HtmlItem(name, a, depth), ListOpen) == 0
    ensures CountKind(HtmlItem(name, a, depth), ListClose) == 0
    ensures CountKind(HtmlItem(name, a, depth), ItemClose) == 0
    ensures CountKind(HtmlItem(name, a, depth), ItemOpen) == 0
    ensures CountKind(HtmlItem(name, a, depth), ItemLeaf) == 1
  {
    var l := Indent(depth + 1) + "<li>" + name(a.filename) + "</li>";
    PlainBranchesNode(name, a);
    KindOfItemLeaf(depth + 1, name(a.filename));
    assert HtmlItem(name, a, depth) == [l];
    CountKindSingle(l, ListOpen);
    CountKindSingle(l, ListClose);
    CountKindSingle(l, ItemClose);
    CountKindSingle(l, ItemOpen);
    CountKindSingle(l, ItemLeaf);
  }

  // ---------------------------------------------------------------------
  // Items in tree order
  // ---------------------------------------------------------------------

  /** Item lines are those that begin an item, left open or complete. */
  predicate IsItemLine(line: string)
  {
    KindOf(line) == ItemOpen || KindOf(line) == ItemLeaf
  }

  /** The item lines among `lines`, in order. */
  function ItemLines(lines: seq<string>): seq<string>
  {
    Filter(lines, IsItemLine)
  }

  lemma ItemLinesAppend(a: seq<string>, b: seq<string>)
    ensures ItemLines(a + b) == ItemLines(a) + ItemLines(b)
  {
    FilterAppend(a, b, IsItemLine);
  }

  lemma ItemLinesSingle(line: string)
    ensures ItemLines([line]) == if IsItemLine(line) then [line] else []
  {
    assert [line][1..] == [];
    assert Filter([line][1..], IsItemLine) == [];
  }

  /** Reference for the item of a node at tree level `level` in an outline
      started at depth 0: indented `2 * level + 1` steps, closed on the same
      line exactly when the node has no children. */
  function ItemLineAt<P, C>(name: P -> string, n: Asset<P, C>, level: nat): string
  {
    if |n.children| != 0 then Indent(2 * level + 1) + "<li>" + name(n.filename)
    else Indent(2 * level + 1) + "<li>" + name(n.filename) + "</li>"
  }

  /** The reference item line of every listed node. */
  function ItemLinesAt<P, C>(name: P -> string, listing: seq<(Asset<P, C>, nat)>): seq<string>
  {
    seq(|listing|, i requires 0 <= i < |listing| => ItemLineAt(name, listing[i].0, listing[i].1))
  }

  lemma ItemLinesAtAppend<P, C>(name: P -> string, a: seq<(Asset<P, C>, nat)>, b: seq<(Asset<P, C>, nat)>)
    ensures ItemLinesAt(name, a + b) == ItemLinesAt(name, a) + ItemLinesAt(name, b)
  {
  }

  /** The item lines of the HTML outline are the nodes in pre-order, one
      each, the item of a node at level `k` indented `2 * k + 1` steps:
      indentation follows the tree's depth (`HtmlOutputNesting` states the
      same of the markers' nesting). */
  lemma {:induction false} HtmlOutputItemLines<P(!new), C>(name: P -> string, forest: seq<Asset<P, C>>, level: nat)
    ensures ItemLines(HtmlOutput(name, forest, 2 * level)) == ItemLinesAt(name, Listing(forest, level))
    decreases forest, 2
  {
    var o := Indent(2 * level) + "<ol>";
    var c := Indent(2 * level) + "</ol>";
    var items := HtmlItems(name, forest, 2 * level);
    KindOfListOpen(2 * level);
    KindOfListClose(2 * level);
    assert HtmlOutput(name, forest, 2 * level) == [o] + (items + [c]);
    ItemLinesAppend([o], items + [c]);
    ItemLinesAppend(items, [c]);
    assert ItemLines([o]) == [] && ItemLines([c]) == [] by {
      assert [o][1..] == [] && [c][1..] == [];
    }
    HtmlItemsItemLines(name, forest, level);
  }

  /** The item lines of the items of a forest at depth `2 * level`. */
  lemma {:induction false} HtmlItemsItemLines<P(!new), C>(name: P -> string, forest: seq<Asset<P, C>>, level: nat)
    ensures ItemLines(HtmlItems(name, forest, 2 * level)) == ItemLinesAt(name, Listing(forest, level))
    decreases forest, 1
  {
    if |forest| != 0 {
      var first := HtmlItem(name, forest[0], 2 * level);
      var others := HtmlItems(name, forest[1..], 2 * level);
      ItemLinesAppend(first, others);
      HtmlItemItemLines(name, forest[0], level);
      HtmlItemsItemLines(name, forest[1..], level);
      ListingUnfold(forest, level);
      var head := [(forest[0], level)] + Listing(forest[0].children, level + 1);
      ItemLinesAtAppend(name, head, Listing(forest[1..], level));
    }
  }

  /** The item lines of one node's item: the node at `level`, then its
      descendants one level down per generation. */
  lemma {:induction false} HtmlItemItemLines<P(!new), C>(name: P -> string, a: Asset<P, C>, level: nat)
    ensures ItemLines(HtmlItem(name, a, 2 * level))
            == ItemLinesAt(name, [(a, level)] + Listing(a.children, level + 1))
    decreases a, 0
  {
    ItemLinesAtAppend(name, [(a, level)], Listing(a.children, level + 1));
    assert ItemLinesAt(name, [(a, level)]) == [ItemLineAt(name, a, level)];
    if |a.children| != 0 {
      HtmlOutputItemLines(name, a.children, level + 1);
      HtmlBranchItemLines(name, a, level);
    } else {
      HtmlLeafItemLines(name, a, level);
      assert Listing(a.children, level + 1) == [];
    }
  }

  /** The item of a node with children: its own item line, then those of
      the nested list. */
  lemma HtmlBranchItemLines<P, C>(name: P -> string, a: Asset<P, C>, level: nat)
    requires |a.children| != 0
    ensures ItemLines(HtmlItem(name, a, 2 * level))
            == [ItemLineAt(name, a, level)] + ItemLines(HtmlOutput(name, a.children, 2 * (level + 1)))
  {
    var o := Indent(2 * level + 1) + "<li>" + name(a.filename);
    var inner := HtmlOutput(name, a.children, 2 * (level + 1));
    var c := Indent(2 * level + 1) + "</li>";
    KindOfItemOpen(2 * level + 1, name(a.filename));
    KindOfItemClose(2 * level + 1);
    assert HtmlItem(name, a, 2 * level) == [o] + (inner + [c]);
    ItemLinesAppend([o], inner + [c]);
    ItemLinesAppend(inner, [c]);
    ItemLinesSingle(o);
    ItemLinesSingle(c);
  }

  /** The item of a leaf: its single, complete item line. */
  lemma HtmlLeafItemLines<P, C>(name: P -> string, a: Asset<P, C>, level: nat)
    requires |a.children| == 0
    ensures ItemLines(HtmlItem(name, a, 2 * level)) == [ItemLineAt(name, a, level)]
  {
    var l := Indent(2 * level + 1) + "<li>" + name(a.filename) + "</li>";
    KindOfItemLeaf(2 * level + 1, name(a.filename));
    assert HtmlItem(name, a, 2 * level) == [l];
    ItemLinesSingle(l);
  }

  // ---------------------------------------------------------------------
  // Nesting
  // ---------------------------------------------------------------------

  /** What an open marker on the nesting stack belongs to. */
  datatype Tag = List | Item

  /** Outcome of reading lines: the markers still open, or malformed markup. */
  datatype ScanResult = Malformed | Open(stack: seq<Tag>)

  /** Read lines with a stack of open markers (innermost last). A list may
      open at the top level or directly inside an item; an item, open or
      complete, only directly inside a list; each closing marker must match
      the innermost open one; any other text is malformed. */
  function Scan(lines: seq<string>, stack: seq<Tag>): ScanResult
  {
    if |lines| == 0 then Open(stack)
    else
      var inList := |stack| != 0 && stack[|stack| - 1] == List;
      var inItem := |stack| != 0 && stack[|stack| - 1] == Item;
      match KindOf(lines[0])
      case ListOpen => if |stack| == 0 || inItem then Scan(lines[1..], stack + [List]) else Malformed
      case ItemOpen => if inList then Scan(lines[1..], stack + [Item]) else Malformed
      case ItemLeaf => if inList then Scan(lines[1..], stack) else Malformed
      case ListClose => if inList then Scan(lines[1..], stack[..|stack| - 1]) else Malformed
      case ItemClose => if inItem then Scan(lines[1..], stack[..|stack| - 1]) else Malformed
      case Text => Malformed
  }

  /** Markup is well formed when reading it from the top level leaves
      nothing open and finds nothing out of place. */
  predicate WellFormed(lines: seq<string>)
  {
    Scan(lines, []) == Open([])
  }

  /** The output of `nested_html_output`, read wherever a list may stand, is
      a complete, properly nested list that leaves the stack as it was,
      exactly when every node with children has a plain name; otherwise the
      reader finds it malformed. */
  lemma {:induction false} HtmlOutputScan<P(!new), C>(name: P -> string, forest: seq<Asset<P, C>>, depth: nat,
                                                      rest: seq<string>, stack: seq<Tag>)
    requires |stack| == 0 || stack[|stack| - 1] == Item
    ensures Scan(HtmlOutput(name, forest, depth) + rest, stack)
            == if PlainBranches(name, forest) then Scan(rest, stack) else Malformed
    decreases forest, 2
  {
    var o := Indent(depth) + "<ol>";
    var c := Indent(depth) + "</ol>";
    var items := HtmlItems(name, forest, depth);
    KindOfListOpen(depth);
    KindOfListClose(depth);
    var lines := HtmlOutput(name, forest, depth) + rest;
    assert lines == [o] + (items + ([c] + rest));
    assert lines[1..] == items + ([c] + rest);
    HtmlItemsScan(name, forest, depth, [c] + rest, stack + [List]);
    assert ([c] + rest)[1..] == rest;
    assert (stack + [List])[..|stack|] == stack;
  }

  /** The items of a forest, read inside a list, leave the stack as it was
      when every node with children has a plain name, and are malformed
      otherwise. */
  lemma {:induction false} HtmlItemsScan<P(!new), C>(name: P -> string, forest: seq<Asset<P, C>>, depth: nat,
                                                     rest: seq<string>, stack: seq<Tag>)
    requires |stack| != 0 && stack[|stack| - 1] == List
    ensures Scan(HtmlItems(name, forest, depth) + rest, stack)
            == if PlainBranches(name, forest) then Scan(rest, stack) else Malformed
    decreases forest, 1
  {
    if |forest| == 0 {
      assert HtmlItems(name, forest, depth) + rest == rest;
    } else {
      var first := HtmlItem(name, forest[0], depth);
      var others := HtmlItems(name, forest[1..], depth);
      assert HtmlItems(name, forest, depth) + rest == first + (others + rest);
      HtmlItemScan(name, forest[0], depth, others + rest, stack);
      HtmlItemsScan(name, forest[1..], depth, rest, stack);
      PlainBranchesSplit(name, forest);
    }
  }

  /** The item of one node, read inside a list, leaves the stack as it was
      when every node with children in its tree has a plain name. A node
      with children whose name ends in `</li>` opens no item, so the `<ol>`
      of its children stands directly inside a list and is malformed. */
  lemma {:induction false} HtmlItemScan<P(!new), C>(name: P -> string, a: Asset<P, C>, depth: nat,
                                                    rest: seq<string>, stack: seq<Tag>)
    requires |stack| != 0 && stack[|stack| - 1] == List
    ensures Scan(HtmlItem(name, a, depth) + rest, stack)
            == if PlainBranches(name, [a]) then Scan(rest, stack) else Malformed
    decreases a, 0
  {
    PlainBranchesNode(name, a);
    if |a.children| != 0 {
      var inner := HtmlOutput(name, a.children, depth + 2);
      var c := Indent(depth + 1) + "</li>";
      if PlainName(name(a.filename)) {
        HtmlBranchScan(name, a, depth, rest, stack);
        HtmlOutputScan(name, a.children, depth + 2, [c] + rest, stack + [Item]);
        ScanItemClose(depth + 1, rest, stack);
      } else {
        HtmlMisreadScan(name, a, depth, rest, stack);
      }
    } else {
      var l := Indent(depth + 1) + "<li>" + name(a.filename) + "</li>";
      KindOfItemLeaf(depth + 1, name(a.filename));
      assert ([l] + rest)[1..] == rest;
    }
  }

  /** Reading the opening line of an item with a plain name inside a list
      opens an item. */
  lemma ScanItemOpen(depth: nat, n: string, rest: seq<string>, stack: seq<Tag>)
    requires PlainName(n)
    requires |stack| != 0 && stack[|stack| - 1] == List
    ensures Scan([Indent(depth) + "<li>" + n] + rest, stack) == Scan(rest, stack + [Item])
  {
    KindOfItemOpen(depth, n);
    assert ([Indent(depth) + "<li>" + n] + rest)[1..] == rest;
  }

  /** Reading an `</li>` line inside an item closes it. */
  lemma ScanItemClose(depth: nat, rest: seq<string>, outer: seq<Tag>)
    ensures Scan([Indent(depth) + "</li>"] + rest, outer + [Item]) == Scan(rest, outer)
  {
    KindOfItemClose(depth);
    assert ([Indent(depth) + "</li>"] + rest)[1..] == rest;
    assert (outer + [Item])[..|outer|] == outer;
  }

  /** A node with children and a plain name: reading its item opens the
      item and goes on with the children's block inside it. */
  lemma HtmlBranchScan<P(!new), C>(name: P -> string, a: Asset<P, C>, depth: nat,
                                   rest: seq<string>, stack: seq<Tag>)
    requires |a.children| != 0 && PlainName(name(a.filename))
    requires |stack| != 0 && stack[|stack| - 1] == List
    ensures Scan(HtmlItem(name, a, depth) + rest, stack)
            == Scan(HtmlOutput(name, a.children, depth + 2) + ([Indent(depth + 1) + "</li>"] + rest), stack + [Item])
  {
    var o := Indent(depth + 1) + "<li>" + name(a.filename);
    var body := HtmlOutput(name, a.children, depth + 2);
    var c := Indent(depth + 1) + "</li>";
    assert HtmlItem(name, a, depth) + rest == [o] + (body + ([c] + rest));
    ScanItemOpen(depth + 1, name(a.filename), body + ([c] + rest), stack);
  }

  /** A node with children whose name ends in `</li>`: its opening line
      reads as a complete item, and the `<ol>` that follows cannot stand
      directly inside a list. */
  lemma HtmlMisreadScan<P(!new), C>(name: P -> string, a: Asset<P, C>, depth: nat,
                                    rest: seq<string>, stack: seq<Tag>)
    requires |a.children| != 0 && !PlainName(name(a.filename))
    requires |stack| != 0 && stack[|stack| - 1] == List
    ensures Scan(HtmlItem(name, a, depth) + rest, stack) == Malformed
  {
    var o := Indent(depth + 1) + "<li>" + name(a.filename);
    var ol := Indent(depth + 2) + "<ol>";
    var items := HtmlItems(name, a.children, depth + 2);
    var cl := Indent(depth + 2) + "</ol>";
    var c := Indent(depth + 1) + "</li>";
    var tail := items + ([cl] + ([c] + rest));
    KindOfItemOpen(depth + 1, name(a.filename));
    KindOfListOpen(depth + 2);
    assert HtmlOutput(name, a.children, depth + 2) == [ol] + items + [cl];
    assert HtmlItem(name, a, depth) == [o] + ([ol] + items + [cl]) + [c];
    var lines := HtmlItem(name, a, depth) + rest;
    assert lines == [o] + ([ol] + tail);
    assert lines[1..] == [ol] + tail;
    assert ([ol] + tail)[0] == ol;
  }

  // ---------------------------------------------------------------------
  // Nesting depth of items
  // ---------------------------------------------------------------------

  /** Read lines as `Scan` does and record, at every item line, how many
      markers are open around it. Reading stops where `Scan` finds the
      markup malformed. */
  function ItemDepths(lines: seq<string>, stack: seq<Tag>): seq<nat>
  {
    if |lines| == 0 then []
    else
      var inList := |stack| != 0 && stack[|stack| - 1] == List;
      var inItem := |stack| != 0 && stack[|stack| - 1] == Item;
      match KindOf(lines[0])
      case ListOpen => if |stack| == 0 || inItem then ItemDepths(lines[1..], stack + [List]) else []
      case ItemOpen => if inList then [|stack|] + ItemDepths(lines[1..], stack + [Item]) else []
      case ItemLeaf => if inList then [|stack|] + ItemDepths(lines[1..], stack) else []
      case ListClose => if inList then ItemDepths(lines[1..], stack[..|stack| - 1]) else []
      case ItemClose => if inItem then ItemDepths(lines[1..], stack[..|stack| - 1]) else []
      case Text => []
  }

  /** The nesting depth expected of each listed node: a node at level `k`
      sits inside `k + 1` lists and `k` items. */
  function LevelDepths<P, C>(listing: seq<(Asset<P, C>, nat)>): seq<nat>
  {
    seq(|listing|, i requires 0 <= i < |listing| => 2 * listing[i].1 + 1)
  }

  lemma LevelDepthsAppend<P, C>(a: seq<(Asset<P, C>, nat)>, b: seq<(Asset<P, C>, nat)>)
    ensures LevelDepths(a + b) == LevelDepths(a) + LevelDepths(b)
  {
  }

  /** Reading an `<ol>` line where a list may stand opens a list. */
  lemma ItemDepthsListOpen(depth: nat, rest: seq<string>, stack: seq<Tag>)
    requires |stack| == 0 || stack[|stack| - 1] == Item
    ensures ItemDepths([Indent(depth) + "<ol>"] + rest, stack) == ItemDepths(rest, stack + [List])
  {
    KindOfListOpen(depth);
    assert ([Indent(depth) + "<ol>"] + rest)[1..] == rest;
  }

  /** Reading an `</ol>` line inside a list closes it. */
  lemma ItemDepthsListClose(depth: nat, rest: seq<string>, outer: seq<Tag>)
    ensures ItemDepths([Indent(depth) + "</ol>"] + rest, outer + [List]) == ItemDepths(rest, outer)
  {
    KindOfListClose(depth);
    assert ([Indent(depth) + "</ol>"] + rest)[1..] == rest;
    assert (outer + [List])[..|outer|] == outer;
  }

  /** Reading the opening line of an item with a plain name inside a list
      records the current depth and opens an item. */
  lemma ItemDepthsItemOpen(depth: nat, n: string, rest: seq<string>, stack: seq<Tag>)
    requires PlainName(n)
    requires |stack| != 0 && stack[|stack| - 1] == List
    ensures ItemDepths([Indent(depth) + "<li>" + n] + rest, stack) == [|stack|] + ItemDepths(rest, stack + [Item])
  {
    KindOfItemOpen(depth, n);
    assert ([Indent(depth) + "<li>" + n] + rest)[1..] == rest;
  }

  /** Reading an `</li>` line inside an item closes it. */
  lemma ItemDepthsItemClose(depth: nat, rest: seq<string>, outer: seq<Tag>)
    ensures ItemDepths([Indent(depth) + "</li>"] + rest, outer + [Item]) == ItemDepths(rest, outer)
  {
    KindOfItemClose(depth);
    assert ([Indent(depth) + "</li>"] + rest)[1..] == rest;
    assert (outer + [Item])[..|outer|] == outer;
  }

  /** Reading a complete item line inside a list records the current depth. */
  lemma ItemDepthsItemLeaf(depth: nat, n: string, rest: seq<string>, stack: seq<Tag>)
    requires |stack| != 0 && stack[|stack| - 1] == List
    ensures ItemDepths([Indent(depth) + "<li>" + n + "</li>"] + rest, stack) == [|stack|] + ItemDepths(rest, stack)
  {
    KindOfItemLeaf(depth, n);
    assert ([Indent(depth) + "<li>" + n + "</li>"] + rest)[1..] == rest;
  }

  /** An `<ol>` block read where a list may stand: the depths of its inner
      lines, read inside the new list, and then the rest as before. */
  lemma ItemDepthsListBlock(depth: nat, items: seq<string>, rest: seq<string>, stack: seq<Tag>, inner: seq<nat>)
    requires |stack| == 0 || stack[|stack| - 1] == Item
    requires ItemDepths(items + ([Indent(depth) + "</ol>"] + rest), stack + [List])
             == inner + ItemDepths([Indent(depth) + "</ol>"] + rest, stack + [List])
    ensures ItemDepths([Indent(depth) + "<ol>"] + (items + ([Indent(depth) + "</ol>"] + rest)), stack)
            == inner + ItemDepths(rest, stack)
  {
    ItemDepthsListOpen(depth, items + ([Indent(depth) + "</ol>"] + rest), stack);
    ItemDepthsListClose(depth, rest, stack);
  }

  /** An item left open, read inside a list: its own depth, the depths of
      its inner lines read inside the new item, and then the rest as before. */
  lemma ItemDepthsItemBlock(depth: nat, n: string, body: seq<string>, rest: seq<string>,
                            stack: seq<Tag>, inner: seq<nat>)
    requires PlainName(n)
    requires |stack| != 0 && stack[|stack| - 1] == List
    requires ItemDepths(body + ([Indent(depth) + "</li>"] + rest), stack + [Item])
             == inner + ItemDepths([Indent(depth) + "</li>"] + rest, stack + [Item])
    ensures ItemDepths([Indent(depth) + "<li>" + n] + (body + ([Indent(depth) + "</li>"] + rest)), stack)
            == [|stack|] + (inner + ItemDepths(rest, stack))
  {
    ItemDepthsItemOpen(depth, n, body + ([Indent(depth) + "</li>"] + rest), stack);
    ItemDepthsItemClose(depth, rest, stack);
  }

  /** Concatenation is associative; stated once so that proofs can name the
      regrouping they need. */
  lemma Regroup<T>(a: seq<T>, b: seq<T>, c: seq<T>)
    ensures (a + b) + c == a + (b + c)
  {
  }

  /** Expected depths of a forest: its first tree's, then the others'. */
  lemma LevelDepthsUnfold<P, C>(forest: seq<Asset<P, C>>, level: nat)
    requires |forest| != 0
    ensures LevelDepths(Listing(forest, level))
            == LevelDepths([(forest[0], level)] + Listing(forest[0].children, level + 1))
               + LevelDepths(Listing(forest[1..], level))
  {
    ListingUnfold(forest, level);
    LevelDepthsAppend([(forest[0], level)] + Listing(forest[0].children, level + 1), Listing(forest[1..], level));
  }

  /** Expected depths of one tree: its root's, then its children's. */
  lemma LevelDepthsNode<P, C>(a: Asset<P, C>, level: nat)
    ensures LevelDepths([(a, level)] + Listing(a.children, level + 1))
            == [2 * level + 1] + LevelDepths(Listing(a.children, level + 1))
  {
    LevelDepthsAppend([(a, level)], Listing(a.children, level + 1));
  }

  /** Read where a list may stand with `2 * level` markers open, the outline
      of a forest whose roots are at `level` reads each node's item line,
      in pre-order, inside exactly `2 * k + 1` markers for a node at level
      `k`, then goes on with the rest as before. */
  lemma {:induction false} HtmlOutputDepths<P(!new), C>(name: P -> string, forest: seq<Asset<P, C>>, depth: nat,
                                                        level: nat, rest: seq<string>, stack: seq<Tag>)
    requires PlainBranches(name, forest)
    requires |stack| == 2 * level
    requires |stack| == 0 || stack[|stack| - 1] == Item
    ensures ItemDepths(HtmlOutput(name, forest, depth) + rest, stack)
            == LevelDepths(Listing(forest, level)) + ItemDepths(rest, stack)
    decreases forest, 2
  {
    var o := Indent(depth) + "<ol>";
    var c := Indent(depth) + "</ol>";
    var items := HtmlItems(name, forest, depth);
    assert HtmlOutput(name, forest, depth) + rest == [o] + (items + ([c] + rest));
    HtmlItemsDepths(name, forest, depth, level, [c] + rest, stack + [List]);
    ItemDepthsListBlock(depth, items, rest, stack, LevelDepths(Listing(forest, level)));
  }

  /** The items of a forest whose roots are at `level`, read inside a list
      with `2 * level + 1` markers open. */
  lemma {:induction false} HtmlItemsDepths<P(!new), C>(name: P -> string, forest: seq<Asset<P, C>>, depth: nat,
                                                       level: nat, rest: seq<string>, stack: seq<Tag>)
    requires PlainBranches(name, forest)
    requires |stack| == 2 * level + 1
    requires stack[|stack| - 1] == List
    ensures ItemDepths(HtmlItems(name, forest, depth) + rest, stack)
            == LevelDepths(Listing(forest, level)) + ItemDepths(rest, stack)
    decreases forest, 1
  {
    if |forest| == 0 {
      assert HtmlItems(name, forest, depth) + rest == rest;
    } else {
      var first := HtmlItem(name, forest[0], depth);
      var others := HtmlItems(name, forest[1..], depth);
      var head := LevelDepths([(forest[0], level)] + Listing(forest[0].children, level + 1));
      var tail := LevelDepths(Listing(forest[1..], level));
      assert HtmlItems(name, forest, depth) + rest == first + (others + rest);
      PlainBranchesSplit(name, forest);
      HtmlItemDepths(name, forest[0], depth, level, others + rest, stack);
      HtmlItemsDepths(name, forest[1..], depth, level, rest, stack);
      LevelDepthsUnfold(forest, level);
      Regroup(head, tail, ItemDepths(rest, stack));
    }
  }

  /** The item of a node at `level`, read inside a list with `2 * level + 1`
      markers open: the node's own line at that depth, then its subtree two
      markers deeper per generation. */
  lemma {:induction false} HtmlItemDepths<P(!new), C>(name: P -> string, a: Asset<P, C>, depth: nat,
                                                      level: nat, rest: seq<string>, stack: seq<Tag>)
    requires PlainBranches(name, [a])
    requires |stack| == 2 * level + 1
    requires stack[|stack| - 1] == List
    ensures ItemDepths(HtmlItem(name, a, depth) + rest, stack)
            == LevelDepths([(a, level)] + Listing(a.children, level + 1)) + ItemDepths(rest, stack)
    decreases a, 0
  {
    var below := LevelDepths(Listing(a.children, level + 1));
    PlainBranchesNode(name, a);
    LevelDepthsNode(a, level);
    Regroup([2 * level + 1], below, ItemDepths(rest, stack));
    if |a.children| != 0 {
      HtmlOutputDepths(name, a.children, depth + 2, level + 1, [Indent(depth + 1) + "</li>"] + rest, stack + [Item]);
      HtmlBranchDepths(name, a, depth, level, rest, stack);
    } else {
      HtmlLeafDepths(name, a, depth, level, rest, stack);
    }
  }

  /** A node with children, given the depths of its children's block: its
      own line at its level's depth, then that block. */
  lemma HtmlBranchDepths<P(!new), C>(name: P -> string, a: Asset<P, C>, depth: nat,
                                     level: nat, rest: seq<string>, stack: seq<Tag>)
    requires |a.children| != 0 && PlainName(name(a.filename))
    requires |stack| == 2 * level + 1
    requires stack[|stack| - 1] == List
    requires ItemDepths(HtmlOutput(name, a.children, depth + 2) + ([Indent(depth + 1) + "</li>"] + rest), stack + [Item])
             == LevelDepths(Listing(a.children, level + 1)) + ItemDepths([Indent(depth + 1) + "</li>"] + rest, stack + [Item])
    ensures ItemDepths(HtmlItem(name, a, depth) + rest, stack)
            == [2 * level + 1] + (LevelDepths(Listing(a.children, level + 1)) + ItemDepths(rest, stack))
  {
    var o := Indent(depth + 1) + "<li>" + name(a.filename);
    var inner := HtmlOutput(name, a.children, depth + 2);
    var c := Indent(depth + 1) + "</li>";
    assert HtmlItem(name, a, depth) + rest == [o] + (inner + ([c] + rest));
    ItemDepthsItemBlock(depth + 1, name(a.filename), inner, rest, stack, LevelDepths(Listing(a.children, level + 1)));
  }

  /** A childless node's item is one line, read at its level's depth. */
  lemma HtmlLeafDepths<P, C>(name: P -> string, a: Asset<P, C>, depth: nat,
                             level: nat, rest: seq<string>, stack: seq<Tag>)
    requires |a.children| == 0
    requires |stack| == 2 * level + 1
    requires stack[|stack| - 1] == List
    ensures ItemDepths(HtmlItem(name, a, depth) + rest, stack)
            == [2 * level + 1] + LevelDepths(Listing(a.children, level + 1)) + ItemDepths(rest, stack)
  {
    ItemDepthsItemLeaf(depth + 1, name(a.filename), rest, stack);
    assert Listing(a.children, level + 1) == [];
  }

  /** Read from the top level, the item line of every node, in pre-order,
      lies inside `k + 1` lists and `k` items for a node at tree level `k`:
      list nesting in the markup follows the tree's depth exactly. */
  lemma HtmlOutputNesting<P(!new), C>(name: P -> string, roots: seq<Asset<P, C>>, depth: nat)
    requires PlainBranches(name, roots)
    ensures ItemDepths(HtmlOutput(name, roots, depth), []) == LevelDepths(Listing(roots, 0))
  {
    HtmlOutputDepths(name, roots, depth, 0, [], []);
    assert HtmlOutput(name, roots, depth) + [] == HtmlOutput(name, roots, depth);
  }

  /** `nested_html_output` writes well-formed markup, every `<ol>` and every
      open `<li>` closed by its own matching line in nesting order, exactly
      when no node with children has a display name ending in `</li>`. */
  lemma HtmlOutputWellFormed<P(!new), C>(name: P -> string, roots: seq<Asset<P, C>>, depth: nat)
    ensures WellFormed(HtmlOutput(name, roots, depth)) <==> PlainBranches(name, roots)
  {
    HtmlOutputScan(name, roots, depth, [], []);
    assert HtmlOutput(name, roots, depth) + [] == HtmlOutput(name, roots, depth);
  }
}

=== FILE: renderers.dfy ===
/** The three output formats of the extractor: `flat_output`,
    `nested_output` and `nested_html_output`. Each returns the lines it
    would `puts`, in order, instead of writing them. Display names come from
    the parameter `name`, which stands for `clean_filename`.
 */
module Renderers {
  import opened Sequences
  import opened DependencyExtractor

  /** `"  " * depth`: two spaces per level. */
  function Indent(depth: nat): (s: string)
    ensures |s| == 2 * depth
    ensures forall i :: 0 <= i < |s| ==> s[i] == ' '
  {
    if depth == 0 then "" else "  " + Indent(depth - 1)
  }

  // ---------------------------------------------------------------------
  // Flat output
  // ---------------------------------------------------------------------

  /** Display names of a list of nodes, in order. */
  function DisplayNames<P, C>(name: P -> string, nodes: seq<Asset<P, C>>): seq<string>
  {
    seq(|nodes|, i requires 0 <= i < |nodes| => name(nodes[i].filename))
  }

  /** The display names of every root's dependencies, root after root,
      before duplicates are removed. */
  function DependencyNames<P, C>(name: P -> string, roots: seq<Asset<P, C>>): seq<string>
  {
    Concat(RootNames(name, roots))
  }

  /** Per root, the display names of its dependencies. */
  function RootNames<P, C>(name: P -> string, roots: seq<Asset<P, C>>): seq<seq<string>>
  {
    seq(|roots|, i requires 0 <= i < |roots| => DisplayNames(name, Dependencies(roots[i])))
  }

  /** `flat_output`: the dependency names of all roots, each name once, at
      the place it is first seen. The printed text is these lines joined
      with newlines. */
  function FlatOutput<P, C>(name: P -> string, roots: seq<Asset<P, C>>): (lines: seq<string>)
    ensures NoDuplicates(lines)
  {
    Uniq(DependencyNames(name, roots))
  }

  /** Names of the roots `a + b` are those of `a` followed by those of `b`. */
  lemma DependencyNamesAppend<P, C>(name: P -> string, a: seq<Asset<P, C>>, b: seq<Asset<P, C>>)
    ensures DependencyNames(name, a + b) == DependencyNames(name, a) + DependencyNames(name, b)
  {
    assert RootNames(name, a + b) == RootNames(name, a) + RootNames(name, b);
    ConcatAppend(RootNames(name, a), RootNames(name, b));
  }

  /** A name is printed exactly when it is the display name of some
      dependency of some root. A root's own name is therefore printed only
      when some root reaches that file as a dependency. */
  lemma FlatOutputMembers<P, C>(name: P -> string, roots: seq<Asset<P, C>>, x: string)
    ensures x in FlatOutput(name, roots) <==>
      exists i, j :: 0 <= i < |roots| && 0 <= j < |Dependencies(roots[i])| &&
        name(Dependencies(roots[i])[j].filename) == x
  {
    var lists := RootNames(name, roots);
    var all := DependencyNames(name, roots);
    ConcatMember(lists, x);
    assert x in FlatOutput(name, roots) <==> x in all by {
      if x in all {
        var k :| 0 <= k < |all| && all[k] == x;
        assert all[k] in FlatOutput(name, roots);
      }
    }
    if x in all {
      var i :| 0 <= i < |lists| && x in lists[i];
      var j :| 0 <= j < |lists[i]| && lists[i][j] == x;
      assert 0 <= i < |roots| && 0 <= j < |Dependencies(roots[i])| &&
        name(Dependencies(roots[i])[j].filename) == x;
    }
    if exists i, j :: 0 <= i < |roots| && 0 <= j < |Dependencies(roots[i])| &&
        name(Dependencies(roots[i])[j].filename) == x {
      var i, j :| 0 <= i < |roots| && 0 <= j < |Dependencies(roots[i])| &&
        name(Dependencies(roots[i])[j].filename) == x;
      assert lists[i][j] == x;
      assert x in lists[i];
      assert x in all;
    }
  }

  /** Names are printed in the order in which they are first met when the
      roots' dependency lists are read one after the other. */
  lemma FlatOutputOrder<P, C>(name: P -> string, roots: seq<Asset<P, C>>)
    ensures forall i, j :: 0 <= i < j < |FlatOutput(name, roots)| ==>
      FirstIndex(DependencyNames(name, roots), FlatOutput(name, roots)[i])
        < FirstIndex(DependencyNames(name, roots), FlatOutput(name, roots)[j])
  {
    UniqFirstOccurrenceOrder(DependencyNames(name, roots));
  }

  /** Removing duplicates from the flat output again changes nothing. */
  lemma FlatOutputIdempotent<P, C>(name: P -> string, roots: seq<Asset<P, C>>)
    ensures Uniq(FlatOutput(name, roots)) == FlatOutput(name, roots)
  {
    UniqIdempotent(DependencyNames(name, roots));
  }

  /** Adding entry files after the others only appends lines: the output
      for the first files is a prefix of the output for all of them. */
  lemma FlatOutputExtends<P, C>(name: P -> string, a: seq<Asset<P, C>>, b: seq<Asset<P, C>>)
    ensures FlatOutput(name, a) <= FlatOutput(name, a + b)
  {
    DependencyNamesAppend(name, a, b);
    UniqPrefix(DependencyNames(name, a), DependencyNames(name, b));
  }

  /** Roots without children print nothing. */
  lemma FlatOutputOfLeaves<P, C>(name: P -> string, roots: seq<Asset<P, C>>)
    requires forall i :: 0 <= i < |roots| ==> roots[i].children == []
    ensures FlatOutput(name, roots) == []
  {
    if |FlatOutput(name, roots)| != 0 {
      FlatOutputMembers(name, roots, FlatOutput(name, roots)[0]);
      assert false;
    }
  }

  // ---------------------------------------------------------------------
  // Nested output
  // ---------------------------------------------------------------------

  /** `nested_output`: for each root in order, its name indented by `depth`
      levels, then its children one level deeper. */
  function NestedOutput<P, C>(name: P -> string, forest: seq<Asset<P, C>>, depth: nat): seq<string>
  {
    if |forest| == 0 then []
    else [Indent(depth) + name(forest[0].filename)]
         + NestedOutput(name, forest[0].children, depth + 1)
         + NestedOutput(name, forest[1..], depth)
  }

  /** Reference definition: every node of the forest in pre-order, paired
      with its level, which is `depth` for the roots and one more for each
      step down to a child. */
  function Listing<P, C>(forest: seq<Asset<P, C>>, depth: nat): seq<(Asset<P, C>, nat)>
    decreases forest, 1
  {
    Concat(RootListings(forest, depth))
  }

  /** Each root paired with `depth`, followed by the listing of its children one level down. */
  function RootListings<P, C>(forest: seq<Asset<P, C>>, depth: nat): seq<seq<(Asset<P, C>, nat)>>
    decreases forest, 0
  {
    seq(|forest|, i requires 0 <= i < |forest| => [(forest[i], depth)] + Listing(forest[i].children, depth + 1))
  }

  /** The nodes of a listing, without their levels. */
  function Nodes<P, C>(listing: seq<(Asset<P, C>, nat)>): seq<Asset<P, C>>
  {
    seq(|listing|, i requires 0 <= i < |listing| => listing[i].0)
  }

  /** How a listed node is printed: `2 * level` spaces, then its name. */
  function Lines<P, C>(name: P -> string, listing: seq<(Asset<P, C>, nat)>): seq<string>
  {
    seq(|listing|, i requires 0 <= i < |listing| => Indent(listing[i].1) + name(listing[i].0.filename))
  }

  /** The listing of a forest is its first root, that root's children one
      level down, then the listing of the remaining roots. */
  lemma ListingUnfold<P, C>(forest: seq<Asset<P, C>>, depth: nat)
    requires |forest| != 0
    ensures Listing(forest, depth)
      == [(forest[0], depth)] + Listing(forest[0].children, depth + 1) + Listing(forest[1..], depth)
  {
    assert RootListings(forest, depth)[1..] == RootListings(forest[1..], depth);
  }

  /** The nodes listed are the pre-order traversal of the forest. */
  lemma {:induction false} ListingNodes<P, C>(forest: seq<Asset<P, C>>, depth: nat)
    ensures Nodes(Listing(forest, depth)) == Preorder(forest)
  {
    if |forest| != 0 {
      ListingUnfold(forest, depth);
      ListingNodes(forest[0].children, depth + 1);
      ListingNodes(forest[1..], depth);
      var l1 := Listing(forest[0].children, depth + 1);
      var l2 := Listing(forest[1..], depth);
      assert Nodes([(forest[0], depth)] + l1 + l2) == [forest[0]] + Nodes(l1) + Nodes(l2);
    }
  }

  /** `nested_output` prints one line per node in pre-order, with no
      deduplication: the line of a node at level `k` is `2 * k` spaces
      followed by its display name. */
  lemma {:induction false} NestedOutputLines<P, C>(name: P -> string, forest: seq<Asset<P, C>>, depth: nat)
    ensures NestedOutput(name, forest, depth) == Lines(name, Listing(forest, depth))
  {
    if |forest| != 0 {
      ListingUnfold(forest, depth);
      NestedOutputLines(name, forest[0].children, depth + 1);
      NestedOutputLines(name, forest[1..], depth);
      var l1 := Listing(forest[0].children, depth + 1);
      var l2 := Listing(forest[1..], depth);
      assert Lines(name, [(forest[0], depth)] + l1 + l2)
        == [Indent(depth) + name(forest[0].filename)] + Lines(name, l1) + Lines(name, l2);
    }
  }

  /** The nested output has exactly one line per node of the forest. */
  lemma {:induction false} NestedOutputLength<P, C>(name: P -> string, forest: seq<Asset<P, C>>, depth: nat)
    ensures |NestedOutput(name, forest, depth)| == ForestSize(forest)
  {
    NestedOutputLines(name, forest, depth);
    ListingNodes(forest, depth);
    PreorderLength(forest);
  }

  /** Roots are printed in input order: the output for `a + b` is the
      output for `a` followed by the output for `b`. */
  lemma {:induction false} NestedOutputAppend<P, C>(name: P -> string, a: seq<Asset<P, C>>, b: seq<Asset<P, C>>, depth: nat)
    ensures NestedOutput(name, a + b, depth) == NestedOutput(name, a, depth) + NestedOutput(name, b, depth)
  {
    if |a| == 0 {
      assert a + b == b;
    } else {
      assert (a + b)[0] == a[0];
      assert (a + b)[1..] == a[1..] + b;
      NestedOutputAppend(name, a[1..], b, depth);
    }
  }

  // ---------------------------------------------------------------------
  // Nested HTML output
  // ---------------------------------------------------------------------

  /** `nested_html_output`: an `<ol>` line at `depth`, the items of the
      forest, and an `</ol>` line at `depth`. */
  function HtmlOutput<P, C>(name: P -> string, forest: seq<Asset<P, C>>, depth: nat): seq<string>
    decreases forest, 2
  {
    [Indent(depth) + "<ol>"] + HtmlItems(name, forest, depth) + [Indent(depth) + "</ol>"]
  }

  /** The items of a forest, root after root. */
  function HtmlItems<P, C>(name: P -> string, forest: seq<Asset<P, C>>, depth: nat): seq<string>
    decreases forest, 1
  {
    if |forest| == 0 then [] else HtmlItem(name, forest[0], depth) + HtmlItems(name, forest[1..], depth)
  }

  /** One item at `depth + 1`: a childless node is a complete `<li>name</li>`
      line; a node with children opens `<li>name`, lists its children at
      `depth + 2` and closes with `</li>`. */
  function HtmlItem<P, C>(name: P -> string, a: Asset<P, C>, depth: nat): seq<string>
    decreases a, 0
  {
    if |a.children| != 0 then
      [Indent(depth + 1) + "<li>" + name(a.filename)]
      + HtmlOutput(name, a.children, depth + 2)
      + [Indent(depth + 1) + "</li>"]
    else
      [Indent(depth + 1) + "<li>" + name(a.filename) + "</li>"]
  }
}

=== FILE: resolution_errors.dfy ===
/** The builder when the resolver can raise (a missing file, an import it
    cannot parse). `analyze_file` has no rescue: the first error raised
    while resolving any file of the tree ends the whole call, and no tree
    is returned. `E` is the type of the resolver's errors.
 */
module ResolutionErrors {
  import opened Sequences
  import opened DependencyExtractor

  /** What the resolver does for one file: report its imports, or raise. */
  datatype Resolution<P, C, E> = Imports(pairs: seq<(P, C)>) | Raises(error: E)

  /** What the builder does: return a tree, or pass on the resolver's error. */
  datatype Outcome<T, E> = Built(value: T) | Failed(error: E)

  /** A resolver that may raise, with the rank that states acyclicity. */
  datatype FallibleResolver<!P(!new), !C(!new), E> =
    FallibleResolver(resolve: (P, C) -> Resolution<P, C, E>, rank: (P, C) -> nat)
  {
    /** Every reported import leads to a file of strictly smaller rank. */
    ghost predicate Acyclic()
    {
      forall p: P, c: C, i :: resolve(p, c).Imports? && 0 <= i < |resolve(p, c).pairs| ==>
        rank(resolve(p, c).pairs[i].0, resolve(p, c).pairs[i].1) < rank(p, c)
    }

    /** The same resolver with every raise read as "imports nothing". */
    function Total(): (r: Resolver<P, C>)
      ensures forall p, c :: resolve(p, c).Imports? ==> r.deps(p, c) == resolve(p, c).pairs
      ensures forall p, c :: resolve(p, c).Raises? ==> r.deps(p, c) == []
      ensures r.rank == rank
    {
      Resolver((p, c) => if resolve(p, c).Imports? then resolve(p, c).pairs else [], rank)
    }
  }

  /** The rank condition carries over to the total resolver. */
  lemma TotalAcyclic<P(!new), C(!new), E>(fr: FallibleResolver<P, C, E>)
    requires fr.Acyclic()
    ensures fr.Total().Acyclic()
  {
    var r := fr.Total();
    forall p: P, c: C, i | 0 <= i < |r.deps(p, c)|
      ensures r.rank(r.deps(p, c)[i].0, r.deps(p, c)[i].1) < r.rank(p, c)
    {
      assert fr.resolve(p, c).Imports?;
    }
  }

  /** `analyze_file` with a resolver that may raise: resolve the file, then
      build the children left to right; the first error is the result. */
  function TryBuild<P(!new), C(!new), E>(fr: FallibleResolver<P, C, E>, f: P, c: C): Outcome<Asset<P, C>, E>
    requires fr.Acyclic()
    decreases fr.rank(f, c), 1, 0
  {
    match fr.resolve(f, c)
    case Raises(e) => Failed(e)
    case Imports(ds) =>
      match TryChildren(fr, f, c, 0)
      case Failed(e) => Failed(e)
      case Built(children) => Built(Asset(f, c, children))
  }

  /** The children of `f` built from its `i`-th import on, in order,
      stopping at the first error. */
  function TryChildren<P(!new), C(!new), E>(fr: FallibleResolver<P, C, E>, f: P, c: C, i: nat)
    : Outcome<seq<Asset<P, C>>, E>
    requires fr.Acyclic()
    requires fr.resolve(f, c).Imports?
    requires i <= |fr.resolve(f, c).pairs|
    decreases fr.rank(f, c), 0, |fr.resolve(f, c).pairs| - i
  {
    var ds := fr.resolve(f, c).pairs;
    if i == |ds| then Built([])
    else
      match TryBuild(fr, ds[i].0, ds[i].1)
      case Failed(e) => Failed(e)
      case Built(t) =>
        match TryChildren(fr, f, c, i + 1)
        case Failed(e) => Failed(e)
        case Built(ts) => Built([t] + ts)
  }

  /** Every node of the tree was resolved without an error. */
  ghost predicate NoneRaised<P(!new), C(!new), E>(fr: FallibleResolver<P, C, E>, t: Asset<P, C>)
  {
    && fr.resolve(t.filename, t.importer).Imports?
    && forall i :: 0 <= i < |t.children| ==> NoneRaised(fr, t.children[i])
  }

  /** A tree comes back only when no file in it raised, and it is then the
      tree the builder makes with the resolver's reported imports: there is
      no partial tree. */
  lemma {:induction false} TryBuildSuccess<P(!new), C(!new), E>(fr: FallibleResolver<P, C, E>, f: P, c: C)
    requires fr.Acyclic()
    requires TryBuild(fr, f, c).Built?
    ensures NoneRaised(fr, TryBuild(fr, f, c).value)
    ensures fr.Total().Acyclic()
    ensures TryBuild(fr, f, c).value == Build(fr.Total(), f, c)
    decreases fr.rank(f, c), 1, 0
  {
    TotalAcyclic(fr);
    var ds := fr.resolve(f, c).pairs;
    TryChildrenSuccess(fr, f, c, 0);
    var t := TryBuild(fr, f, c).value;
    var b := Build(fr.Total(), f, c);
    assert t.children == b.children[0..];
    assert b.children[0..] == b.children;
  }

  /** The children built from import `i` on, when no error came back. */
  lemma {:induction false} TryChildrenSuccess<P(!new), C(!new), E>(fr: FallibleResolver<P, C, E>, f: P, c: C, i: nat)
    requires fr.Acyclic()
    requires fr.resolve(f, c).Imports?
    requires i <= |fr.resolve(f, c).pairs|
    requires TryChildren(fr, f, c, i).Built?
    ensures fr.Total().Acyclic()
    ensures forall k :: 0 <= k < |TryChildren(fr, f, c, i).value| ==> NoneRaised(fr, TryChildren(fr, f, c, i).value[k])
    ensures TryChildren(fr, f, c, i).value == Build(fr.Total(), f, c).children[i..]
    decreases fr.rank(f, c), 0, |fr.resolve(f, c).pairs| - i
  {
    TotalAcyclic(fr);
    var ds := fr.resolve(f, c).pairs;
    var b := Build(fr.Total(), f, c);
    if i < |ds| {
      TryBuildSuccess(fr, ds[i].0, ds[i].1);
      TryChildrenSuccess(fr, f, c, i + 1);
      assert b.children[i..] == [b.children[i]] + b.children[i + 1..];
    }
  }

  /** `nodes[k]` is the first of `nodes` whose resolution raises, and it
      raises `e`: every node before it resolves to its imports. */
  predicate RaisesFirstAt<P(!new), C(!new), E(==)>(fr: FallibleResolver<P, C, E>, nodes: seq<Asset<P, C>>, k: int, e: E)
  {
    && 0 <= k < |nodes|
    && fr.resolve(nodes[k].filename, nodes[k].importer) == Raises(e)
    && forall j :: 0 <= j < k ==> fr.resolve(nodes[j].filename, nodes[j].importer).Imports?
  }

  /** The first raise in `a` is also the first in `a + b`. */
  lemma RaisesFirstPrefix<P(!new), C(!new), E>(fr: FallibleResolver<P, C, E>, a: seq<Asset<P, C>>,
                                                   b: seq<Asset<P, C>>, k: int, e: E)
    requires RaisesFirstAt(fr, a, k, e)
    ensures RaisesFirstAt(fr, a + b, k, e)
  {
    assert forall j :: 0 <= j <= k ==> (a + b)[j] == a[j];
  }

  /** When nothing in `a` raises, the first raise in `b` is the first in `a + b`. */
  lemma RaisesFirstAfter<P(!new), C(!new), E>(fr: FallibleResolver<P, C, E>, a: seq<Asset<P, C>>,
                                                  b: seq<Asset<P, C>>, k: int, e: E)
    requires forall d :: d in a ==> fr.resolve(d.filename, d.importer).Imports?
    requires RaisesFirstAt(fr, b, k, e)
    ensures RaisesFirstAt(fr, a + b, |a| + k, e)
  {
    assert forall j :: 0 <= j < |a| ==> (a + b)[j] == a[j] && a[j] in a;
    assert forall j :: |a| <= j < |a| + |b| ==> (a + b)[j] == b[j - |a|];
  }

  /** No node visited in a tree that raised nothing resolves to an error. */
  lemma {:induction false} NoneRaisedVisited<P(!new), C(!new), E>(fr: FallibleResolver<P, C, E>, t: Asset<P, C>)
    requires NoneRaised(fr, t)
    ensures forall d :: d in Visited(t) ==> fr.resolve(d.filename, d.importer).Imports?
  {
    forall d | d in Visited(t)
      ensures fr.resolve(d.filename, d.importer).Imports?
    {
      if d != t {
        assert d in Dependencies(t);
        ConcatMember(ChildLists(t.children), d);
        var i :| 0 <= i < |t.children| && d in ChildLists(t.children)[i];
        assert ChildLists(t.children)[i] == Visited(t.children[i]);
        NoneRaisedVisited(fr, t.children[i]);
      }
    }
  }

  /** An error comes back exactly from the first file, in the order
      `analyze_file` resolves them (the file itself, then its dependencies
      in pre-order), whose resolution raises: the error of that file, and
      every file resolved before it reported its imports. */
  lemma {:induction false} TryBuildFailure<P(!new), C(!new), E>(fr: FallibleResolver<P, C, E>, f: P, c: C)
    requires fr.Acyclic()
    requires TryBuild(fr, f, c).Failed?
    ensures fr.Total().Acyclic()
    ensures exists k :: RaisesFirstAt(fr, Visited(Build(fr.Total(), f, c)), k, TryBuild(fr, f, c).error)
    decreases fr.rank(f, c), 1, 0
  {
    TotalAcyclic(fr);
    var b := Build(fr.Total(), f, c);
    var e := TryBuild(fr, f, c).error;
    if fr.resolve(f, c).Raises? {
      assert RaisesFirstAt(fr, Visited(b), 0, e);
    } else {
      TryChildrenFailure(fr, f, c, 0);
      assert b.children[0..] == b.children;
      var k :| RaisesFirstAt(fr, Concat(ChildLists(b.children)), k, e);
      RaisesFirstAfter(fr, [b], Dependencies(b), k, e);
      assert RaisesFirstAt(fr, Visited(b), 1 + k, e);
    }
  }

  /** The same for the children built from import `i` on: the error is that
      of the first file, in resolution order, of the trees of those imports
      whose resolution raises. */
  lemma {:induction false} TryChildrenFailure<P(!new), C(!new), E>(fr: FallibleResolver<P, C, E>, f: P, c: C, i: nat)
    requires fr.Acyclic()
    requires fr.resolve(f, c).Imports?
    requires i <= |fr.resolve(f, c).pairs|
    requires TryChildren(fr, f, c, i).Failed?
    ensures fr.Total().Acyclic()
    ensures |Build(fr.Total(), f, c).children| == |fr.resolve(f, c).pairs|
    ensures exists k :: RaisesFirstAt(fr, Concat(ChildLists(Build(fr.Total(), f, c).children[i..])), k,
                                      TryChildren(fr, f, c, i).error)
    decreases fr.rank(f, c), 0, |fr.resolve(f, c).pairs| - i
  {
    TotalAcyclic(fr);
    var ds := fr.resolve(f, c).pairs;
    var b := Build(fr.Total(), f, c);
    var e := TryChildren(fr, f, c, i).error;
    var cs := b.children[i..];
    var child := Build(fr.Total(), ds[i].0, ds[i].1);
    assert cs[0] == child;
    assert ChildLists(cs)[0] == Visited(child);
    assert ChildLists(cs)[1..] == ChildLists(b.children[i + 1..]);
    assert Concat(ChildLists(cs)) == Visited(child) + Concat(ChildLists(b.children[i + 1..]));
    if TryBuild(fr, ds[i].0, ds[i].1).Failed? {
      TryBuildFailure(fr, ds[i].0, ds[i].1);
      var k :| RaisesFirstAt(fr, Visited(child), k, e);
      RaisesFirstPrefix(fr, Visited(child), Concat(ChildLists(b.children[i + 1..])), k, e);
    } else {
      TryBuildSuccess(fr, ds[i].0, ds[i].1);
      NoneRaisedVisited(fr, child);
      TryChildrenFailure(fr, f, c, i + 1);
      var k :| RaisesFirstAt(fr, Concat(ChildLists(b.children[i + 1..])), k, e);
      RaisesFirstAfter(fr, Visited(child), Concat(ChildLists(b.children[i + 1..])), k, e);
    }
  }

  /** A tree comes back exactly when no file of the tree the plain builder
      makes with the reported imports raises: the converse of
      `TryBuildSuccess`. */
  lemma TryBuildBuiltIff<P(!new), C(!new), E>(fr: FallibleResolver<P, C, E>, f: P, c: C)
    requires fr.Acyclic()
    ensures fr.Total().Acyclic()
    ensures TryBuild(fr, f, c).Built? <==> NoneRaised(fr, Build(fr.Total(), f, c))
  {
    TotalAcyclic(fr);
    var b := Build(fr.Total(), f, c);
    if TryBuild(fr, f, c).Built? {
      TryBuildSuccess(fr, f, c);
    } else if NoneRaised(fr, b) {
      TryBuildFailure(fr, f, c);
      NoneRaisedVisited(fr, b);
      assert false;
    }
  }

  /** A resolver that never raises makes the fallible builder agree with the
      plain one. */
  lemma TryBuildNeverRaising<P(!new), C(!new), E>(fr: FallibleResolver<P, C, E>, f: P, c: C)
    requires fr.Acyclic()
    requires forall p, q :: fr.resolve(p, q).Imports?
    ensures fr.Total().Acyclic()
    ensures TryBuild(fr, f, c) == Built(Build(fr.Total(), f, c))
  {
    TotalAcyclic(fr);
    if TryBuild(fr, f, c).Failed? {
      TryBuildFailure(fr, f, c);
      assert false;
    }
    TryBuildSuccess(fr, f, c);
  }
}

=== FILE: sequences.dfy ===
/** Sequence helpers used by the dependency extractor: concatenating a
    sequence of sequences (what Ruby's `Array#flatten` does to the arrays
    the extractor builds) and removing duplicates while keeping first
    occurrences (Ruby's `Array#uniq`).

    `flatten` without an argument flattens every level. On the extractor's
    arrays the result is the same as joining the per-child or per-asset
    lists: `child.dependencies` and the per-asset name lists are already
    flat, and an `Asset` struct has no `to_ary`, so `flatten` does not split
    it. For `Asset#dependencies`, which flattens `[child, child.dependencies]`
    pairs, the model first joins each pair into `[child] + dependencies`
    (`ChildLists`) and then concatenates.
 */
module Sequences {

  /** Concatenation of a sequence of sequences, left to right. */
  function Concat<T>(ss: seq<seq<T>>): seq<T>
  {
    if |ss| == 0 then [] else ss[0] + Concat(ss[1..])
  }

  /** The elements of `s` that satisfy `keep`, in order. */
  function Filter<T>(s: seq<T>, keep: T -> bool): seq<T>
  {
    if |s| == 0 then [] else (if keep(s[0]) then [s[0]] else []) + Filter(s[1..], keep)
  }

  /** Filtering distributes over concatenation. */
  lemma {:induction false} FilterAppend<T>(a: seq<T>, b: seq<T>, keep: T -> bool)
    ensures Filter(a + b, keep) == Filter(a, keep) + Filter(b, keep)
  {
    if |a| == 0 {
      assert a + b == b;
    } else {
      var h := if keep(a[0]) then [a[0]] else [];
      assert (a + b)[0] == a[0];
      assert (a + b)[1..] == a[1..] + b;
      FilterAppend(a[1..], b, keep);
      assert Filter(a + b, keep) == h + (Filter(a[1..], keep) + Filter(b, keep));
      assert Filter(a, keep) == h + Filter(a[1..], keep);
    }
  }

  /** Concatenating a single sequence gives that sequence. */
  lemma ConcatSingle<T>(s: seq<T>)
    ensures Concat([s]) == s
  {
    assert [s][1..] == [];
  }

  /** Concatenation distributes over appending the outer sequences. */
  lemma {:induction false} ConcatAppend<T>(a: seq<seq<T>>, b: seq<seq<T>>)
    ensures Concat(a + b) == Concat(a) + Concat(b)
  {
    if |a| == 0 {
      assert a + b == b;
    } else {
      assert (a + b)[1..] == a[1..] + b;
      ConcatAppend(a[1..], b);
    }
  }

  /** An element belongs to the concatenation exactly when it belongs to one of the parts. */
  lemma {:induction false} ConcatMember<T>(ss: seq<seq<T>>, x: T)
    ensures x in Concat(ss) <==> exists i :: 0 <= i < |ss| && x in ss[i]
  {
    if |ss| != 0 {
      ConcatMember(ss[1..], x);
      if x in Concat(ss[1..]) {
        var i :| 0 <= i < |ss[1..]| && x in ss[1..][i];
        assert x in ss[i + 1];
      }
      if exists i :: 0 <= i < |ss| && x in ss[i] {
        var i :| 0 <= i < |ss| && x in ss[i];
        if i > 0 {
          assert x in ss[1..][i - 1];
        }
      }
    }
  }

  /** No value occurs twice. */
  predicate NoDuplicates<T(==)>(s: seq<T>)
  {
    forall i, j :: 0 <= i < j < |s| ==> s[i] != s[j]
  }

  /** Position of the first occurrence of `x` in `s`. */
  function FirstIndex<T(==)>(s: seq<T>, x: T): (k: nat)
    requires x in s
    ensures k < |s| && s[k] == x
    ensures x !in s[..k]
  {
    if s[0] == x then 0 else 1 + FirstIndex(s[1..], x)
  }

  /** The first occurrence of a value is found in any extension of the sequence at the same place. */
  lemma {:induction false} FirstIndexPrefix<T>(s: seq<T>, t: seq<T>, x: T)
    requires x in s
    ensures FirstIndex(s + t, x) == FirstIndex(s, x)
  {
    if s[0] != x {
      assert (s + t)[1..] == s[1..] + t;
      FirstIndexPrefix(s[1..], t, x);
    }
  }

  /** `s` with every element dropped that already occurred earlier: Ruby's `uniq`,
      which keeps the first occurrence of each value. Defined from the back,
      so that the last element is kept exactly when it is new. */
  function Uniq<T(==)>(s: seq<T>): (r: seq<T>)
    ensures NoDuplicates(r)
    ensures forall i :: 0 <= i < |r| ==> r[i] in s
    ensures forall i :: 0 <= i < |s| ==> s[i] in r
    ensures |r| <= |s|
  {
    if |s| == 0 then []
    else
      var init := s[..|s| - 1];
      var x := s[|s| - 1];
      assert s == init + [x];
      if x in init then Uniq(init) else Uniq(init) + [x]
  }

  /** A sequence without duplicates is left as it is. */
  lemma {:induction false} UniqOfDistinct<T>(s: seq<T>)
    requires NoDuplicates(s)
    ensures Uniq(s) == s
  {
    if |s| != 0 {
      var init := s[..|s| - 1];
      assert s[|s| - 1] !in init;
      UniqOfDistinct(init);
      assert init + [s[|s| - 1]] == s;
    }
  }

  /** Deduplicating twice is deduplicating once. */
  lemma {:induction false} UniqIdempotent<T>(s: seq<T>)
    ensures Uniq(Uniq(s)) == Uniq(s)
  {
    UniqOfDistinct(Uniq(s));
  }

  /** Appending more input only appends to the output: what was kept for `a`
      is kept, in the same order, at the front of the result for `a + b`. */
  lemma {:induction false} UniqPrefix<T>(a: seq<T>, b: seq<T>)
    ensures Uniq(a) <= Uniq(a + b)
  {
    if |b| == 0 {
      assert a + b == a;
    } else {
      var b' := b[..|b| - 1];
      UniqPrefix(a, b');
      assert (a + b)[..|a + b| - 1] == a + b';
    }
  }

  /** The output lists values in the order of their first occurrence in the input. */
  lemma {:induction false} UniqFirstOccurrenceOrder<T>(s: seq<T>)
    ensures forall i, j :: 0 <= i < j < |Uniq(s)| ==>
              FirstIndex(s, Uniq(s)[i]) < FirstIndex(s, Uniq(s)[j])
  {
    if |s| != 0 {
      var init := s[..|s| - 1];
      var x := s[|s| - 1];
      assert s == init + [x];
      UniqFirstOccurrenceOrder(init);
      var u := Uniq(init);
      forall y | y in init
        ensures FirstIndex(s, y) == FirstIndex(init, y) < |init|
      {
        FirstIndexPrefix(init, [x], y);
      }
      if x !in init {
        assert s[..|init|] == init;
        assert FirstIndex(s, x) == |init|;
        forall i, j | 0 <= i < j < |Uniq(s)|
          ensures FirstIndex(s, Uniq(s)[i]) < FirstIndex(s, Uniq(s)[j])
        {
          assert Uniq(s) == u + [x];
          assert Uniq(s)[i] == u[i];
          if j < |u| {
            assert Uniq(s)[j] == u[j];
          }
        }
      }
    }
  }

  /** Ruby's `uniq` walks the array once, remembering the values already
      seen in a hash; the result is the first-occurrence deduplication. */
  method UniqInOrder<T(==)>(s: seq<T>) returns (r: seq<T>)
    ensures r == Uniq(s)
  {
    var seen: set<T> := {};
    r := [];
    var i := 0;
    while i < |s|
      invariant 0 <= i <= |s|
      invariant r == Uniq(s[..i])
      invariant forall x :: x in seen <==> x in s[..i]
    {
      assert s[..i + 1][..i] == s[..i];
      if s[i] !in seen {
        r := r + [s[i]];
      }
      seen := seen + {s[i]};
      i := i + 1;
    }
    assert s[..i] == s;
  }
}

=== FILE: worked_examples.dfy ===
/** Worked examples on small import graphs, with paths as strings, the
    importer as a number and the display name equal to the path. */
module WorkedExamples {
  import opened DependencyExtractor
  import opened Renderers
  import opened HtmlMarkup
  import opened Sequences
  import opened ResolutionErrors

  /** A imports B then C; B and C both import D; D imports nothing. */
  function DiamondDeps(p: string, c: int): seq<(string, int)>
  {
    if p == "A" then [("B", c), ("C", c)]
    else if p == "B" || p == "C" then [("D", c)]
    else []
  }

  function DiamondRank(p: string, c: int): nat
  {
    if p == "A" then 2 else if p == "B" || p == "C" then 1 else 0
  }

  /** X imports Y, Y imports Z, Z imports nothing. */
  function ChainDeps(p: string, c: int): seq<(string, int)>
  {
    if p == "X" then [("Y", c)] else if p == "Y" then [("Z", c)] else []
  }

  function ChainRank(p: string, c: int): nat
  {
    if p == "X" then 2 else if p == "Y" then 1 else 0
  }

  function Plain(p: string): string
  {
    p
  }

  /** The diamond graph has no cycle. */
  lemma DiamondAcyclic()
    ensures Resolver(DiamondDeps, DiamondRank).Acyclic()
  {
  }

  /** The chain has no cycle. */
  lemma ChainAcyclic()
    ensures Resolver(ChainDeps, ChainRank).Acyclic()
  {
  }

  /** A chain X -> Y -> Z builds a path of three nodes, and the flat output
      for X is Y then Z, without X itself. */
  lemma ChainExample()
    ensures Resolver(ChainDeps, ChainRank).Acyclic()
    ensures Build(Resolver(ChainDeps, ChainRank), "X", 0)
            == Asset("X", 0, [Asset("Y", 0, [Asset("Z", 0, [])])])
    ensures FlatOutput(Plain, [Build(Resolver(ChainDeps, ChainRank), "X", 0)]) == ["Y", "Z"]
  {
    var r := Resolver(ChainDeps, ChainRank);
    ChainAcyclic();
    var z := Build(r, "Z", 0);
    assert z == Asset("Z", 0, []);
    var y := Build(r, "Y", 0);
    assert y.children == [z];
    var x := Build(r, "X", 0);
    assert x.children == [y];
    assert Dependencies(z) == [];
    DependenciesUnfold(y);
    DependenciesUnfold(Asset("Y", 0, []));
    assert Dependencies(y) == [z];
    DependenciesUnfold(x);
    DependenciesUnfold(Asset("X", 0, []));
    assert Dependencies(x) == [y, z];
    assert RootNames(Plain, [x]) == [DisplayNames(Plain, [y, z])];
    assert DisplayNames(Plain, [y, z]) == ["Y", "Z"];
    ConcatSingle(["Y", "Z"]);
    assert DependencyNames(Plain, [x]) == ["Y", "Z"];
    assert ["Y", "Z"][..1] == ["Y"];
  }

  /** The tree built for A in the diamond: D appears twice, once under B
      and once under C. */
  lemma DiamondTree()
    ensures Resolver(DiamondDeps, DiamondRank).Acyclic()
    ensures Build(Resolver(DiamondDeps, DiamondRank), "A", 0)
            == Asset("A", 0, [Asset("B", 0, [Asset("D", 0, [])]), Asset("C", 0, [Asset("D", 0, [])])])
  {
    var r := Resolver(DiamondDeps, DiamondRank);
    DiamondAcyclic();
    var d := Build(r, "D", 0);
    assert d == Asset("D", 0, []);
    var b := Build(r, "B", 0);
    assert b.children == [d];
    var c := Build(r, "C", 0);
    assert c.children == [d];
    var a := Build(r, "A", 0);
    assert a.children == [b, c];
  }

  /** The dependencies of the diamond's root: D appears under B and under C. */
  lemma DiamondDependencies()
    ensures Dependencies(Asset("A", 0, [Asset("B", 0, [Asset("D", 0, [])]), Asset("C", 0, [Asset("D", 0, [])])]))
            == [Asset("B", 0, [Asset("D", 0, [])]), Asset("D", 0, []), Asset("C", 0, [Asset("D", 0, [])]), Asset("D", 0, [])]
  {
    var d := Asset("D", 0, []);
    var b := Asset("B", 0, [d]);
    var c := Asset("C", 0, [d]);
    var a := Asset("A", 0, [b, c]);
    DependenciesUnfold(b);
    DependenciesUnfold(Asset("B", 0, []));
    assert Dependencies(b) == [d];
    DependenciesUnfold(c);
    DependenciesUnfold(Asset("C", 0, []));
    assert Dependencies(c) == [d];
    DependenciesUnfold(a);
    DependenciesUnfold(Asset("A", 0, [c]));
    DependenciesUnfold(Asset("A", 0, []));
  }

  /** Removing duplicates from B, D, C, D drops the second D. */
  lemma DiamondUniq()
    ensures Uniq(["B", "D", "C", "D"]) == ["B", "D", "C"]
  {
    assert Uniq(["B"]) == ["B"];
    assert ["B", "D"][..1] == ["B"];
    assert Uniq(["B", "D"]) == ["B", "D"];
    assert ["B", "D", "C"][..2] == ["B", "D"];
    assert Uniq(["B", "D", "C"]) == ["B", "D", "C"];
    assert ["B", "D", "C", "D"][..3] == ["B", "D", "C"];
  }

  /** The diamond's flat output lists D once, although it is reached through
      both B and C, and lists it right after B: dependencies are taken in
      pre-order, so D (under B) is met before C. */
  lemma DiamondFlatExample()
    ensures Resolver(DiamondDeps, DiamondRank).Acyclic()
    ensures FlatOutput(Plain, [Build(Resolver(DiamondDeps, DiamondRank), "A", 0)]) == ["B", "D", "C"]
  {
    DiamondTree();
    var d := Asset("D", 0, []);
    var b := Asset("B", 0, [d]);
    var c := Asset("C", 0, [d]);
    var a := Asset("A", 0, [b, c]);
    DiamondDependencies();
    var deps := [b, d, c, d];
    var names := DisplayNames(Plain, deps);
    assert deps[1].filename == "D" && deps[2].filename == "C" && deps[3].filename == "D";
    assert names[0] == Plain(deps[0].filename) == "B";
    assert names[1] == Plain(deps[1].filename) == "D";
    assert names[2] == Plain(deps[2].filename) == "C";
    assert names[3] == Plain(deps[3].filename) == "D";
    assert names == ["B", "D", "C", "D"];
    assert RootNames(Plain, [a]) == [names];
    ConcatSingle(names);
    DiamondUniq();
  }

  /** The diamond's nested output lists D under both B and C, at equal depth. */
  lemma DiamondNestedExample()
    ensures Resolver(DiamondDeps, DiamondRank).Acyclic()
    ensures NestedOutput(Plain, [Build(Resolver(DiamondDeps, DiamondRank), "A", 0)], 0)
            == ["A", "  B", "    D", "  C", "    D"]
  {
    DiamondTree();
    var d := Asset("D", 0, []);
    var b := Asset("B", 0, [d]);
    var c := Asset("C", 0, [d]);
    var a := Asset("A", 0, [b, c]);
    assert Indent(1) == "  ";
    assert Indent(2) == "    ";
    assert [d][1..] == [] && [c][1..] == [] && [a][1..] == [] && [b, c][1..] == [c];
    assert Indent(2) + Plain("D") == "    D";
    assert Indent(1) + Plain("C") == "  C";
    assert Indent(1) + Plain("B") == "  B";
    assert Indent(0) + Plain("A") == "A";
    assert NestedOutput(Plain, [d], 2) == ["    D"] + NestedOutput<string, int>(Plain, [], 3) + NestedOutput<string, int>(Plain, [], 2);
    assert NestedOutput(Plain, [d], 2) == ["    D"];
    assert NestedOutput(Plain, [c], 1) == ["  C"] + NestedOutput(Plain, [d], 2) + NestedOutput<string, int>(Plain, [], 1);
    assert NestedOutput(Plain, [b, c], 1) == ["  B"] + NestedOutput(Plain, [d], 2) + NestedOutput(Plain, [c], 1);
    assert NestedOutput(Plain, [a], 0) == ["A"] + NestedOutput(Plain, [b, c], 1) + NestedOutput<string, int>(Plain, [], 0);
  }

  /** Listing an entry file twice builds two equal roots; their shared
      dependency D is printed once by the flat output. */
  lemma AnalyzeTwiceExample()
    ensures Resolver(DiamondDeps, DiamondRank).Acyclic()
    ensures |Analyze(Resolver(DiamondDeps, DiamondRank), 0, ["B", "B"])| == 2
    ensures Analyze(Resolver(DiamondDeps, DiamondRank), 0, ["B", "B"])[0]
            == Analyze(Resolver(DiamondDeps, DiamondRank), 0, ["B", "B"])[1]
            == Asset("B", 0, [Asset("D", 0, [])])
    ensures FlatOutput(Plain, Analyze(Resolver(DiamondDeps, DiamondRank), 0, ["B", "B"])) == ["D"]
  {
    var r := Resolver(DiamondDeps, DiamondRank);
    DiamondAcyclic();
    var d := Build(r, "D", 0);
    assert d == Asset("D", 0, []);
    var b := Build(r, "B", 0);
    assert b.children == [d];
    var roots := Analyze(r, 0, ["B", "B"]);
    assert roots == [b, b];
    DependenciesUnfold(b);
    DependenciesUnfold(Asset("B", 0, []));
    assert Dependencies(b) == [d];
    assert DisplayNames(Plain, [d]) == ["D"];
    assert RootNames(Plain, roots) == [["D"], ["D"]];
    assert [["D"], ["D"]][1..] == [["D"]];
    ConcatSingle(["D"]);
    assert DependencyNames(Plain, roots) == ["D", "D"];
    assert ["D", "D"][..1] == ["D"];
  }

  /** The HTML outline of the chain, line by line. */
  lemma ChainHtmlExample()
    ensures Resolver(ChainDeps, ChainRank).Acyclic()
    ensures HtmlOutput(Plain, [Build(Resolver(ChainDeps, ChainRank), "Y", 0)], 0)
            == ["<ol>", "  <li>Y", "    <ol>", "      <li>Z</li>", "    </ol>", "  </li>", "</ol>"]
  {
    var r := Resolver(ChainDeps, ChainRank);
    ChainAcyclic();
    var z := Build(r, "Z", 0);
    assert z == Asset("Z", 0, []);
    var y := Build(r, "Y", 0);
    assert y == Asset("Y", 0, [z]);
    assert Indent(1) == "  ";
    assert Indent(2) == "    ";
    assert Indent(3) == "      ";
    assert Plain("Z") == "Z";
    assert Indent(3) + "<li>" + "Z" + "</li>" == "      <li>Z</li>";
    assert HtmlItem(Plain, z, 2) == ["      <li>Z</li>"];
    assert HtmlItems(Plain, [z], 2) == ["      <li>Z</li>"];
    assert Indent(2) + "<ol>" == "    <ol>";
    assert Indent(2) + "</ol>" == "    </ol>";
    assert HtmlOutput(Plain, [z], 2) == ["    <ol>", "      <li>Z</li>", "    </ol>"];
    assert Indent(1) + "<li>" + "Y" == "  <li>Y";
    assert Indent(1) + "</li>" == "  </li>";
    assert Indent(0) + "<ol>" == "<ol>";
    assert Indent(0) + "</ol>" == "</ol>";
    assert HtmlItems(Plain, [y], 0) == HtmlItem(Plain, y, 0);
  }

  /** With the paths themselves as display names, the diamond's HTML outline
      is well formed, and its item lines A, B, D, C, D lie inside 1, 3, 5, 3
      and 5 open markers: as deep as the nodes sit in the tree. */
  lemma DiamondHtmlExample()
    ensures Resolver(DiamondDeps, DiamondRank).Acyclic()
    ensures WellFormed(HtmlOutput(Plain, [Build(Resolver(DiamondDeps, DiamondRank), "A", 0)], 0))
    ensures ItemDepths(HtmlOutput(Plain, [Build(Resolver(DiamondDeps, DiamondRank), "A", 0)], 0), [])
            == [1, 3, 5, 3, 5]
  {
    DiamondTree();
    var d := Asset("D", 0, []);
    var b := Asset("B", 0, [d]);
    var c := Asset("C", 0, [d]);
    var a := Asset("A", 0, [b, c]);
    DiamondPlainBranches();
    HtmlOutputWellFormed(Plain, [a], 0);
    HtmlOutputNesting(Plain, [a], 0);
    DiamondLevels();
  }

  /** No node of the diamond has a name ending in `</li>`. */
  lemma DiamondPlainBranches()
    ensures PlainBranches(Plain, [Asset("A", 0, [Asset("B", 0, [Asset("D", 0, [])]), Asset("C", 0, [Asset("D", 0, [])])])])
  {
    var d := Asset("D", 0, []);
    var b := Asset("B", 0, [d]);
    var c := Asset("C", 0, [d]);
    var a := Asset("A", 0, [b, c]);
    PlainBranchesNode(Plain, d);
    PlainBranchesNode(Plain, b);
    PlainBranchesNode(Plain, c);
    PlainBranchesSplit(Plain, [b, c]);
    assert [b, c][1..] == [c];
    PlainBranchesNode(Plain, a);
  }

  /** The diamond's nodes in pre-order sit at levels 0, 1, 2, 1, 2. */
  lemma DiamondLevels()
    ensures LevelDepths(Listing([Asset("A", 0, [Asset("B", 0, [Asset("D", 0, [])]), Asset("C", 0, [Asset("D", 0, [])])])], 0))
            == [1, 3, 5, 3, 5]
  {
    var d := Asset("D", 0, []);
    var b := Asset("B", 0, [d]);
    var c := Asset("C", 0, [d]);
    var a := Asset("A", 0, [b, c]);
    var listing := Listing([a], 0);
    assert listing == [(a, 0), (b, 1), (d, 2), (c, 1), (d, 2)] by {
      ListingUnfold([a], 0);
      ListingUnfold([b, c], 1);
      ListingUnfold([b], 1);
      ListingUnfold([c], 1);
      ListingUnfold([d], 2);
      assert [b, c][1..] == [c];
    }
  }

  /** A node with children named `x</li>`: its opening line reads as a
      complete item, so the outline is not well formed. */
  lemma MisreadNameExample()
    ensures !WellFormed(HtmlOutput(Plain, [Asset("x</li>", 0, [Asset("y", 0, [])])], 0))
  {
    var t := Asset("x</li>", 0, [Asset("y", 0, [])]);
    assert "x</li>"[|"x</li>"| - 5..] == "</li>";
    PlainBranchesNode(Plain, t);
    HtmlOutputWellFormed(Plain, [t], 0);
  }

  /** Display names are written unescaped: a childless file whose name is
      `x</ol>` gives an outline whose marker lines read as well formed, even
      though the name puts a `</ol>` inside the item. */
  lemma UnescapedNameExample()
    ensures PlainName("x</ol>")
    ensures HtmlOutput(Plain, [Asset("x</ol>", 0, [])], 0) == ["<ol>", "  <li>x</ol></li>", "</ol>"]
    ensures WellFormed(["<ol>", "  <li>x</ol></li>", "</ol>"])
  {
    UnescapedNameOutput();
    UnescapedNameReads();
    assert Indent(1) == "  ";
    assert Indent(0) + "<ol>" == "<ol>";
    assert Indent(0) + "</ol>" == "</ol>";
    assert Indent(1) + "<li>" + "x</ol>" + "</li>" == "  <li>x</ol></li>";
    assert "x</ol>"[|"x</ol>"| - 5..] == "</ol>";
  }

  /** The lines of that outline, written with the renderer's indentation. */
  function UnescapedLines(): seq<string>
  {
    [Indent(0) + "<ol>", Indent(1) + "<li>" + "x</ol>" + "</li>", Indent(0) + "</ol>"]
  }

  lemma UnescapedNameOutput()
    ensures HtmlOutput(Plain, [Asset("x</ol>", 0, [])], 0) == UnescapedLines()
  {
    var leaf: Asset<string, int> := Asset("x</ol>", 0, []);
    assert Plain("x</ol>") == "x</ol>";
    assert HtmlItem(Plain, leaf, 0) == [UnescapedLines()[1]];
    assert HtmlItems(Plain, [leaf], 0) == HtmlItem(Plain, leaf, 0);
  }

  lemma UnescapedNameReads()
    ensures WellFormed(UnescapedLines())
  {
    var lines := UnescapedLines();
    KindOfListOpen(0);
    KindOfListClose(0);
    KindOfItemLeaf(1, "x</ol>");
    assert lines[1..][1..] == [lines[2]] && [lines[2]][1..] == [];
    assert Scan(lines, []) == Scan(lines[1..], [List]);
    assert Scan(lines[1..], [List]) == Scan([lines[2]], [List]);
    assert Scan([lines[2]], [List]) == Open([]);
  }

  /** A imports B then C; B fails with error 1, C with error 2, and the file
      Z, which nothing imports, with error 3. */
  function FailingResolve(p: string, c: int): Resolution<string, int, int>
  {
    if p == "A" then Imports([("B", c), ("C", c)])
    else if p == "B" then Raises(1)
    else if p == "C" then Raises(2)
    else if p == "Z" then Raises(3)
    else Imports([])
  }

  /** Building A passes on B's error: B is resolved first, and neither C's
      error nor that of the unreachable Z can come back. */
  lemma FirstErrorExample()
    ensures FallibleResolver(FailingResolve, DiamondRank).Acyclic()
    ensures TryBuild(FallibleResolver(FailingResolve, DiamondRank), "A", 0) == Failed(1)
  {
    var fr := FallibleResolver(FailingResolve, DiamondRank);
    assert fr.Acyclic();
    assert TryBuild(fr, "B", 0) == Failed(1);
    assert TryChildren(fr, "A", 0, 0) == Failed(1);
  }
}
